=== FILE: README.md ===
# BancUS transfers and accounts: a Dafny model

This project models the core of two BancUS microservices.

- **Transfers:** the transfer saga of `TransferService`, the MongoDB transaction store (`TransfersRepository`), the Redis cache-aside decorator that can wrap it, the HTTP mapping of the `/v1/transactions` blueprint, and the fixed-window rate limiter.
- **Accounts:** the balance rule of `AccountService`, the `AccountRepository` over the `accounts` collection, and the HTTP mapping of the `/v1/accounts` blueprint.
- **Records:** the record shapes and defaults in the two model files.

The decorator is not wired into the transfers app. Every transactions route builds `TransferService()`, whose default repository is the plain `TransfersRepository` (`src/transfers/services/Transfers_service.py:14-15`), and `src/transfers/app.py` sets up no cache. The decorator takes effect only when a caller passes `TransferService(RedisCachedTransfersRepository(...))`. `Repositories` models that choice, so every saga property is stated over both repositories.

Every store is an immutable map, and every operation is a pure function from a state to an (answer, new state) pair:

- The accounts collection is a `Ledger`, a map from IBAN to account.
- The transaction collection is a map from canonical ObjectId to record, together with the order in which ids were issued.
- The Redis keyspace of the decorator is two maps: per-transaction entries and per-user lists.
- The rate limiter's counters are a pair of maps, keyed by (client, window index).

The transfers service calls the accounts service over HTTP. In the model, each such request goes straight into the accounts blueprint's model. A `Delivery` parameter decides, per request, whether the request is:

- delivered;
- answered with an error status by something in between (any status ≥ 400, the "other error" branches);
- dropped with a transport exception, after the ledger either did or did not apply the change.

An operation sends at most three such requests, and `LedgerLink.Nth(net, i)` gives the delivery of the `i`-th: 0 is the first leg, 1 the second, and 2 the re-credit. Requests beyond the list are delivered.

The transfers service writes the party string into the request URL unescaped. `LedgerLink.Patch` sends each request to the account keyed by exactly that string, as an escaped URL would. `LedgerLink.RouteAsWritten`, `LedgerLink.PatchAsWritten` and `TransferService.MoveAsWritten` model the URL as the code builds it. The URL is the configured accounts base URL, the route, and the party. The HTTP client refuses a URL longer than 65 536 characters, or one holding an ASCII control character (below space, or DEL), and raises before anything is sent. The as-written members agree with `Patch` and `Move` whenever both parties are plain path segments and both URLs are sendable. A plain path segment is non-empty, is not `.` or `..`, and holds no `/`, `?`, `#`, `%` or ASCII control character. See "## Findings".

The other parameters are:

- the ObjectId the store issues, which must never have been issued before;
- the IBAN `schwifty` generates;
- the clock reading;
- the remote address.

Module layout (one file each, named after the module):

- `Wrappers`: `Option` and `Result`.
- `ObjectId`: what `ObjectId(s)` accepts and how it prints.
- `Transactions` and `Accounts`: the record shapes.
- `TransfersRepository`, `CachedTransfersRepository`, `CachedAsWritten` and `Repositories`: the transaction store, the corrected decorator, the decorator as written, and the choice between a plain and a cached store.
- `AccountsRepository`, `AccountsService` and `AccountsApi`: the accounts service, bottom to top.
- `LedgerTotal`: the sum of all balances.
- `LedgerLink`: one request from the transfers service to the accounts service.
- `TransferService` and `TransferProperties`: the saga and what it guarantees.
- `TransactionsApi`: the transactions blueprint.
- `RateLimiter`.

Two behaviours of the code shape the saga model:

- **Transport exceptions are not caught.** `TransferService` catches no `httpx` exception. A dropped request raises out of `create_transaction` or `revert_transaction`, the record stays `pending` (or `completed`), and the route answers 500. `TransferService.Create` and `TransferService.Revert` return `Raised(TransportError)` in that case.
- **No circuit breaker.** `TransferService` calls `httpx` directly. No breaker sits in front of the accounts service, and no operation has a service-unavailable outcome.

## Model

| member | source | states |
|---|---|---|
| ObjectId.Parse | src/transfers/db/TransfersRepository.py:19-23 | An id is accepted when it is 24 hexadecimal digits of either case, and no other string is (whitespace-padded spellings are under "## Left out"); the accepted id is printed back digit by digit in lower case |
| ObjectId.ParsePrinted | src/transfers/db/TransfersRepository.py:11-17 | The printed id of a stored record parses back to the same id, so a record can always be found again by its printed id |
| ObjectId.ParseSameIdIffSameDigits | src/transfers/db/TransfersRepository.py:19-23 | Two accepted spellings name the same record exactly when they agree up to the case of their hex letters |
| Transactions.FromRequest | src/transfers/models/Transactions.py:5-18 | A record built from a create request is `pending`, in USD, with no balance snapshots and no time, and carries exactly the request's sender, receiver and quantity |
| Transactions.FromRequestInjective | src/transfers/models/Transactions.py:15-18 | Different create requests give different records: the caller chooses nothing else |
| TransfersRepository.Find | src/transfers/db/TransfersRepository.py:19-27 | A malformed id finds nothing; otherwise the record stored under the id is returned with its printed id in place of `_id`, and nothing is returned for an unknown id |
| TransfersRepository.Insert | src/transfers/db/TransfersRepository.py:11-17 | The document is stored under a fresh id and returned with that id; it can be found under the id; no other document changes; exactly one document is added |
| TransfersRepository.Select | src/transfers/db/TransfersRepository.py:29-51 | A participant query returns exactly the stored records that match the role and user, each with its id |
| TransfersRepository.FindByUserExactly | src/transfers/db/TransfersRepository.py:29-35 | In a well-formed store a record is listed for a user iff the user sent or received it |
| TransfersRepository.InvolvingIsSentOrReceived | src/transfers/db/TransfersRepository.py:29-51 | The by-user result holds exactly the records of the sent-by result plus those of the received-by result |
| TransfersRepository.FindByUser | src/transfers/db/TransfersRepository.py:29-35 | The by-user query lists exactly the stored records the user sent or received, each with its id |
| TransfersRepository.FindSent | src/transfers/db/TransfersRepository.py:37-43 | The sent-by query lists exactly the stored records the user sent, each with its id |
| TransfersRepository.FindReceived | src/transfers/db/TransfersRepository.py:45-51 | The received-by query lists exactly the stored records the user received, each with its id |
| TransfersRepository.UpdateStatus | src/transfers/db/TransfersRepository.py:53-59 | A malformed id changes nothing; otherwise only the `status` of the matching record changes; the refreshed record is returned iff it exists, and it is what a find now returns |
| TransfersRepository.Delete | src/transfers/services/Transfers_service.py:109-113 | Removal returns what a find returned before, leaves nothing under the id, and removes only that document |
| TransfersRepository.SelectAgrees | src/transfers/db/TransfersRepository.py:29-51 | A query result depends only on the documents that match it |
| TransfersRepository.SelectAppend | src/transfers/db/TransfersRepository.py:11-17 | Issuing one more id extends a query result by at most that record, at the end |
| CachedTransfersRepository.KeyText | src/transfers/db/RedisCachedTransfersRepository.py:15-19 | A per-transaction key is `transaction:` followed by the id, and a per-user key is `user_transactions:` followed by the user |
| CachedTransfersRepository.DropParticipants | src/transfers/db/RedisCachedTransfersRepository.py:114-120 | Dropping both participants' lists removes exactly those two list entries, keeps every other list, and leaves the per-transaction entries alone |
| CachedTransfersRepository.ParseKeyText | src/transfers/db/RedisCachedTransfersRepository.py:15-19 | Every cache key names exactly the entry it was built for |
| CachedTransfersRepository.KeysDistinct | src/transfers/db/RedisCachedTransfersRepository.py:15-19 | Per-transaction keys and per-user keys never collide, and distinct entries have distinct keys |
| CachedTransfersRepository.Drop | src/transfers/db/RedisCachedTransfersRepository.py:106-120 | Deleting a key removes exactly that entry and keeps every other entry |
| CachedTransfersRepository.DropKeepsInvariant | src/transfers/db/RedisCachedTransfersRepository.py:106-120 | Deleting any entry keeps the cache coherent with the store |
| CachedTransfersRepository.Find | src/transfers/db/RedisCachedTransfersRepository.py:21-44 | A hit answers from the cache alone; a miss answers what the store answers and caches it only if found; over a coherent cache the answer is the store's and coherence is kept |
| CachedTransfersRepository.FindByUser | src/transfers/db/RedisCachedTransfersRepository.py:46-69 | A hit answers from the cache; a miss answers the store's list and caches it only when non-empty; over a coherent cache the answer is the store's and coherence is kept |
| CachedTransfersRepository.Insert | src/transfers/db/RedisCachedTransfersRepository.py:71-80 | Insert does what the store does, drops both participants' lists, and keeps coherence |
| CachedTransfersRepository.InsertKeepsInvariant | src/transfers/db/RedisCachedTransfersRepository.py:71-80 | After an insert with both lists dropped, every remaining cached entry still matches the store |
| CachedTransfersRepository.UpdateStatus | src/transfers/db/RedisCachedTransfersRepository.py:82-92 | A status update returns the store's refreshed record, drops the record's entry and both lists when it exists, touches nothing otherwise, and keeps coherence |
| CachedTransfersRepository.RecordChangeOutsideList | src/transfers/db/RedisCachedTransfersRepository.py:82-104 | Changing or removing a record that a user's list does not contain leaves that user's list as it was |
| CachedTransfersRepository.UpdateKeepsInvariant | src/transfers/db/RedisCachedTransfersRepository.py:82-92 | After a status update with the entry and both lists dropped, every remaining cached entry still matches the store |
| CachedTransfersRepository.NoUpdateKeepsStore | src/transfers/db/TransfersRepository.py:53-59 | A status update that finds nothing leaves the store unchanged |
| CachedTransfersRepository.Delete | src/transfers/db/RedisCachedTransfersRepository.py:94-104 | Delete does what the store does, drops the entry and both lists when a record was removed, touches nothing otherwise, and keeps coherence |
| CachedTransfersRepository.DeleteKeepsInvariant | src/transfers/db/RedisCachedTransfersRepository.py:94-104 | After a delete with the entry and both lists dropped, every remaining cached entry still matches the store |
| CachedAsWritten.DropTruthyParticipants | src/transfers/db/RedisCachedTransfersRepository.py:76-79 | As written, a participant's list is dropped only when the participant is non-empty: the list of `""` always survives; with both participants non-empty it is the corrected drop |
| CachedAsWritten.Find | src/transfers/db/RedisCachedTransfersRepository.py:21-44 | As written, keyed by the raw id: a hit answers from the cache; a miss answers the store and caches only a found record; coherence is kept |
| CachedAsWritten.Insert | src/transfers/db/RedisCachedTransfersRepository.py:71-80 | As written: a non-empty sender's list is dropped, but an empty sender's list is kept |
| CachedAsWritten.UpdateStatus | src/transfers/db/RedisCachedTransfersRepository.py:82-92 | As written: the store is updated as the plain repository does, and the raw-id entry is dropped |
| CachedAsWritten.Delete | src/transfers/db/RedisCachedTransfersRepository.py:94-104 | As written: removal does what the store does and drops the raw-id entry |
| CachedAsWritten.UpdateReturnsStaleRecord | src/transfers/db/RedisCachedTransfersRepository.py:82-92 | A status update of a cached record returns the old cached copy, which differs from the stored record and from the corrected decorator's answer |
| CachedAsWritten.EmptySenderListStaysStale | src/transfers/db/RedisCachedTransfersRepository.py:76-79 | Inserting a record with an empty sender leaves the empty user's cached list one record short, so the cache is no longer coherent |
| CachedAsWritten.OtherSpellingStaysStale | src/transfers/db/RedisCachedTransfersRepository.py:15-22 | Updating through one spelling of an id leaves the entry cached under another spelling with the old status, so the cache is no longer coherent |
| Repositories.Find | src/transfers/db/RedisCachedTransfersRepository.py:21-44 | Over either repository whose invariant holds, a find answers what the plain store answers and keeps the invariant |
| Repositories.FindByUser | src/transfers/db/RedisCachedTransfersRepository.py:46-69 | Over either repository whose invariant holds, the by-user query answers what the plain store answers and keeps the invariant |
| Repositories.FindSent | src/transfers/db/TransfersRepository.py:37-43 | Over either repository, a record is listed iff it is stored and was sent by the user, and it carries its id; the decorator does not cache this query |
| Repositories.FindReceived | src/transfers/db/TransfersRepository.py:45-51 | Over either repository, a record is listed iff it is stored and was received by the user, and it carries its id; the decorator does not cache this query |
| Repositories.Insert | src/transfers/db/RedisCachedTransfersRepository.py:71-80 | Over either repository, insert answers and stores what the plain store does and keeps the invariant |
| Repositories.UpdateStatus | src/transfers/db/RedisCachedTransfersRepository.py:82-92 | Over either repository, a status update answers and stores what the plain store does and keeps the invariant |
| Repositories.Delete | src/transfers/db/RedisCachedTransfersRepository.py:94-104 | Over either repository, removal answers and stores what the plain store does and keeps the invariant |
| Accounts.CreateRequest | src/accounts/models/Accounts.py:18-21 | A create request without a subscription has subscription `Free` |
| Accounts.NewAccount | src/accounts/models/Accounts.py:7-15 | A new account holds a zero balance, is not blocked, has no cards, and carries the request's fields, the given IBAN and the clock reading |
| Accounts.Apply | src/accounts/models/Accounts.py:27-30 | The general update never changes the balance, the block flag, the IBAN, the cards or the creation date; an empty update changes nothing |
| Accounts.ApplySetsOnlyGivenFields | src/accounts/db/AccountsRepository.py:52-58 | Each field the update sets is taken from it and every other field is kept; applying the update twice is the same as once |
| AccountsRepository.InsertAccount | src/accounts/db/AccountsRepository.py:13-19 | The new account is returned, can be found under its IBAN, and is the only change to the collection |
| AccountsRepository.FindByIban | src/accounts/db/AccountsRepository.py:21-24 | Nothing is found exactly when no account has the IBAN; otherwise the stored account is returned |
| AccountsRepository.DeleteByIban | src/accounts/db/AccountsRepository.py:26-28 | The answer is true iff an account was removed; afterwards no account has the IBAN |
| AccountsRepository.UpdateBalance | src/accounts/db/AccountsRepository.py:30-43 | The balance is set and the account read back; an unknown IBAN gives nothing and changes nothing |
| AccountsRepository.UpdateAccountAsWritten | src/accounts/db/AccountsRepository.py:45-58 | As written: an update with no fields on an unknown IBAN raises, and nothing else does |
| AccountsRepository.UpdateAccount | src/accounts/db/AccountsRepository.py:45-58 | Only the given fields are set and the account read back; an unknown IBAN gives nothing; an empty update changes nothing; wherever the code as written does not raise, it agrees |
| AccountsRepository.EmptyUpdateOfMissingAccountRaises | src/accounts/db/AccountsRepository.py:48-50 | An empty update of an unknown IBAN raises as written, where the corrected update answers nothing |
| AccountsRepository.SetBlocked | src/accounts/db/AccountsRepository.py:60-75 | The block flag is set and every other field kept; an unknown IBAN gives nothing and changes nothing |
| AccountsRepository.Block | src/accounts/db/AccountsRepository.py:60-67 | A found account comes back blocked and otherwise unchanged; no other account changes |
| AccountsRepository.Unblock | src/accounts/db/AccountsRepository.py:69-75 | A found account comes back unblocked and otherwise unchanged; no other account changes |
| AccountsRepository.BlockUnblockRoundTrip | src/accounts/db/AccountsRepository.py:60-75 | Unblocking undoes blocking of an unblocked account, and vice versa |
| LedgerTotal.TotalRemove | src/accounts/services/Accounts_service.py:32-41 | The total of all balances splits into any one account's balance and the total of the rest |
| LedgerTotal.TotalReplace | src/accounts/services/Accounts_service.py:32-41 | Replacing one account changes the total by exactly the change in its balance |
| AccountsService.UpdateBalance | src/accounts/services/Accounts_service.py:32-41 | An unknown IBAN is the 404 marker; a delta that leaves the balance at or below zero is the 403 marker; in both cases nothing changes; otherwise only the balance moves by the delta and the result is strictly positive |
| AccountsService.UpdateBalanceTotal | src/accounts/services/Accounts_service.py:32-41 | A balance operation moves the total by its delta when applied and not at all otherwise |
| AccountsService.UpdateBalanceKeepsNonNegative | src/accounts/models/Accounts.py:14 | No balance operation leaves a negative balance or a balance of exactly zero |
| AccountsService.UpdateBalanceIgnoresBlocked | src/accounts/services/Accounts_service.py:32-41 | Blocked and unblocked accounts get the same answer to a balance operation |
| AccountsService.GetAccount | src/accounts/services/Accounts_service.py:26-27 | The repository's lookup is returned unchanged |
| AccountsService.AccountUpdate | src/accounts/services/Accounts_service.py:29-30 | The general update raises exactly when it has no fields and the IBAN is unknown; otherwise it finds the account iff it exists, with the given fields applied; it changes no balance and no block flag anywhere |
| AccountsService.AccountUpdateKeepsTotal | src/accounts/models/Accounts.py:27-30 | The general update leaves the total of all balances unchanged |
| AccountsService.DeleteAccount | src/accounts/services/Accounts_service.py:45-46 | The answer is true iff an account was removed; only that IBAN goes |
| AccountsService.BlockAccount | src/accounts/services/Accounts_service.py:48-49 | A found account comes back blocked, with its balance kept |
| AccountsService.UnblockAccount | src/accounts/services/Accounts_service.py:51 | A found account comes back unblocked, with its balance kept |
| AccountsService.CreateNewAccount | src/accounts/services/Accounts_service.py:16-24 | A new account has a zero balance, the generated IBAN and the request's fields, and is the only change to the collection |
| AccountsService.CreateNewAccountTotal | src/accounts/services/Accounts_service.py:16-24 | Opening an account adds nothing to the total |
| AccountsService.OperationsKeepNonNegative | src/accounts/models/Accounts.py:14 | The general update, delete, block, unblock and open all keep every balance non-negative |
| AccountsApi.CreateAccount | src/accounts/api/v1/Accounts_blueprint.py:18-24 | Creating always answers 201 with the new account, which holds zero |
| AccountsApi.ViewAccount | src/accounts/api/v1/Accounts_blueprint.py:26-33 | 200 with the account iff it exists, otherwise 404 |
| AccountsApi.UpdateAccount | src/accounts/api/v1/Accounts_blueprint.py:35-50 | A null body is 400; 500 iff the body is rejected or has no fields for an unknown IBAN; 200 with the updated account iff the body parses and the account exists; 404 otherwise; nothing changes unless 200 |
| AccountsApi.Operation | src/accounts/api/v1/Accounts_blueprint.py:52-73 | A null body is 400; the 404 marker is 404 and the 403 marker is 403; 200 iff the service applied the delta, with a strictly positive balance; nothing changes unless 200 |
| AccountsApi.OperationOutcome | src/accounts/api/v1/Accounts_blueprint.py:68-73 | A parsed operation always answers 200, 403 or 404, and moves the total by its delta iff it answers 200 |
| AccountsApi.DeleteAccount | src/accounts/api/v1/Accounts_blueprint.py:75-80 | Deleting always answers 204, whether or not the account existed |
| AccountsApi.SetBlocked | src/accounts/api/v1/Accounts_blueprint.py:82-96 | 204 iff the account exists, with the flag set and the balance kept; otherwise 404 and no change |
| AccountsApi.BlockedAccountStillOperates | src/accounts/services/Accounts_service.py:32-41 | A blocked account reads as blocked, but a balance operation answers as it would for the account unblocked |
| LedgerLink.Applied | src/accounts/services/Accounts_service.py:37-41 | The ledger after a balance operation moves one balance by the delta when accepted and is unchanged otherwise |
| LedgerLink.Patch | src/transfers/services/Transfers_service.py:32-34 | A delivered request answers below 400 iff the accounts service accepts it, 404 iff the account is unknown and 403 iff the balance would not stay positive; a refused one answers its code with no change; the ledger either stays or takes the delta |
| LedgerLink.PatchTotal | src/transfers/services/Transfers_service.py:32-34 | A request moves the total by its delta exactly when it changed the ledger |
| LedgerLink.AppliedInverse | src/transfers/services/Transfers_service.py:45-54 | A balance change followed by its opposite, both accepted, restores the ledger |
| LedgerLink.PathPart | src/transfers/services/Transfers_service.py:33 | The path of an unescaped URL ends just before the party's first `?` or `#`, and is a prefix of the party |
| LedgerLink.PathPartWhole | src/transfers/services/Transfers_service.py:33 | A party with no `?` or `#` is all path |
| LedgerLink.PathPartPrefix | src/transfers/services/Transfers_service.py:33 | A party whose first `?` or `#` is at position `n` has the path of its first `n` characters |
| LedgerLink.RouteAsWritten | src/transfers/services/Transfers_service.py:33 | As written, a URL the client refuses goes nowhere; otherwise the balance operation is reached iff the party's part before its first `?` or `#` is a plain segment, and then on exactly that account; a path `../` plus a plain segment reaches the general update of that account, and only such a path does |
| LedgerLink.PatchAsWritten | src/transfers/services/Transfers_service.py:32-34 | As written, a plain-segment party in a sendable URL is answered exactly as `Patch` answers; a URL the client refuses raises with the ledger unchanged; a request that reaches the general update never changes the ledger, and, when delivered, answers 200 iff that account exists |
| TransferService.MoveAsWritten | src/transfers/services/Transfers_service.py:32-54 | As written, the requests of a transfer between two plain-segment parties in sendable URLs end exactly as `Move` says; a sender whose URL the client refuses raises before anything changes |
| TransferService.DebitReason | src/transfers/services/Transfers_service.py:35-43 | A refused debit reports `insufficient_funds` iff 403 and `sender_not_found` iff 404, otherwise `debit_error` |
| TransferService.CreditReason | src/transfers/services/Transfers_service.py:47-54 | A refused credit reports `receiver_not_found` iff 404, otherwise `credit_error` |
| TransferService.Move | src/transfers/services/Transfers_service.py:32-54 | Debit, credit, and on a refused credit one re-credit: through means both were accepted and both moved; a refused debit changes nothing; a refused credit leaves the ledger restored unless the re-credit was refused; when all are delivered, it goes through iff both accounts accept |
| TransferService.CompensationRestores | src/transfers/services/Transfers_service.py:48-54 | Re-crediting what was debited restores the ledger unless the re-credit is refused, for a positive quantity |
| TransferService.Create | src/transfers/services/Transfers_service.py:18-57 | A quantity of zero or below raises "Quantity must be positive" and otherwise equal parties raise "Sender and receiver must be different", both with nothing changed; a returned refusal carries the inserted snapshot |
| TransferService.Revert | src/transfers/services/Transfers_service.py:71-97 | An unknown id gives nothing and changes nothing; a returned answer other than `reverted` leaves the store unchanged; only a transport error escapes |
| TransferService.Remove | src/transfers/services/Transfers_service.py:109-113 | The record is removed and returned as `deleted`; a removal that finds nothing is `delete_failed`; the ledger is untouched |
| TransferService.Delete | src/transfers/services/Transfers_service.py:99-113 | An unknown id gives nothing and changes nothing; `deleted` leaves no record under the id; a refused revert leaves the store unchanged |
| TransferService.Get | src/transfers/services/Transfers_service.py:59-60 | Over a repository whose invariant holds, the answer is the stored record; neither store nor ledger changes |
| TransferService.GetByUser | src/transfers/services/Transfers_service.py:62-63 | Over a repository whose invariant holds, the answer is the store's by-user list; neither store nor ledger changes |
| TransferProperties.Transferred | src/transfers/services/Transfers_service.py:56-57 | After a completed transfer the sender has `q` less, the receiver `q` more, and no other account changes |
| TransferProperties.TransferredTotal | src/transfers/services/Transfers_service.py:56-57 | A completed transfer conserves the total of all balances |
| TransferProperties.MoveTotal | src/transfers/services/Transfers_service.py:32-54 | A transfer that went through conserves the total; one that stopped with a changed ledger is short by the quantity |
| TransferProperties.CreateRecordsOnce | src/transfers/services/Transfers_service.py:24-57 | A valid create adds exactly one record, built from the request, under the new id; it ends `completed` iff `completed` is returned, `failed` iff `failed` is returned, and `pending` iff a request raised |
| TransferProperties.CreateLedger | src/transfers/services/Transfers_service.py:32-57 | `completed` means both were accepted and the sender paid the receiver; a debit refusal leaves the ledger as it was; a credit refusal restores it unless the re-credit was refused |
| TransferProperties.CreateConservesTotal | src/transfers/services/Transfers_service.py:18-57 | A create that returns conserves the total, except that a refused re-credit leaves it short by the quantity |
| TransferProperties.CreateCompletesIffAccepted | src/transfers/services/Transfers_service.py:32-57 | With every request delivered, a create completes iff both accounts accept, and a refused create leaves the ledger unchanged |
| TransferProperties.RevertOutcomes | src/transfers/services/Transfers_service.py:71-97 | None iff the id is unknown; `not_reverted` iff the record is not `completed`, with no change; a refused receiver debit changes nothing; a refused sender credit keeps the status and restores the ledger unless the re-credit was refused; `reverted` means the status became `reverted` and the receiver paid the sender |
| TransferProperties.RevertConservesTotal | src/transfers/services/Transfers_service.py:71-97 | `reverted` conserves the total; for a positive quantity, any returned answer conserves it unless the re-credit was refused |
| TransferProperties.DeleteOutcomes | src/transfers/services/Transfers_service.py:99-113 | A delete keeps the repository invariant, answers None iff the id is unknown, and never reports `delete_failed` |
| TransferProperties.DeleteUncompleted | src/transfers/services/Transfers_service.py:104-113 | A record that is not `completed` is removed and returned as `deleted`, with the ledger untouched |
| TransferProperties.DeleteCompleted | src/transfers/services/Transfers_service.py:104-107 | A `completed` record is reverted first; if the revert reaches `reverted` the reverted record is removed, otherwise the revert's answer is returned and the record stays |
| TransferProperties.DeleteRemovesOne | src/transfers/services/Transfers_service.py:109-113 | `deleted` means exactly the record under the id is gone from the store |
| TransferProperties.RevertDependsOnlyOnStore | src/transfers/db/RedisCachedTransfersRepository.py:21-44 | Over two repositories with the same store whose invariants hold, a revert answers alike and leaves the same store and ledger |
| TransferProperties.CreateDependsOnlyOnStore | src/transfers/db/RedisCachedTransfersRepository.py:71-92 | Over two repositories with the same store whose invariants hold, a create answers alike and leaves the same store and ledger |
| TransferProperties.DeleteDependsOnlyOnStore | src/transfers/db/RedisCachedTransfersRepository.py:94-104 | Over two repositories with the same store whose invariants hold, a delete answers alike and leaves the same store and ledger |
| TransferProperties.CachedCreateIsPlainCreate | src/transfers/db/RedisCachedTransfersRepository.py:71-80 | Over a coherent cache, a create through the decorator answers exactly as over the plain store and leaves the same store and ledger |
| TransferProperties.CachedRevertIsPlainRevert | src/transfers/db/RedisCachedTransfersRepository.py:21-44 | Over a coherent cache, a revert through the decorator answers exactly as over the plain store and leaves the same store and ledger |
| TransferProperties.CachedDeleteIsPlainDelete | src/transfers/db/RedisCachedTransfersRepository.py:94-104 | Over a coherent cache, a delete through the decorator answers exactly as over the plain store and leaves the same store and ledger |
| TransferProperties.CreateThenRevert | src/transfers/services/Transfers_service.py:71-97 | With every request delivered, an accepted create followed by a revert restores the ledger and leaves the record `reverted`, when the receiver held something before |
| TransferProperties.StrictRuleBlocksRevert | src/accounts/services/Accounts_service.py:37-41 | A transfer to an account that held nothing cannot be reverted: the receiver's debit is refused with `receiver_insufficient_funds` and the ledger keeps the transfer |
| TransferProperties.DotSegmentSenderAddsMoney | src/transfers/services/Transfers_service.py:33-57 | As written, a sender `../<a>` is debited through the general update: the transfer goes through, only the receiver is credited, and the total grows by the quantity; addressed exactly, it stops at the debit with 404 and no change |
| TransferProperties.QuerySuffixesMeetAtOneAccount | src/transfers/services/Transfers_service.py:33-57 | As written, `<a>?x` paying `<a>?y` passes the different-parties check, goes through, and leaves the ledger unchanged; addressed exactly, it stops at the debit with 404 |
| TransferProperties.ControlCharacterSenderRaises | src/transfers/services/Transfers_service.py:30-34 | As written, a sender holding a tab raises at the debit with nothing changed, where exact addressing would refuse it with 404 |
| TransactionsApi.CreateResponse | src/transfers/api/v1/Transactions_blueprint.py:18-28 | A `ValueError` is 400 with its message; `completed` is 202 with the record; any other result is 400 with the whole result; a transport error is 500 |
| TransactionsApi.CreateRoute | src/transfers/api/v1/Transactions_blueprint.py:16-28 | An invalid request answers 400 and changes nothing |
| TransactionsApi.CreateRouteCodes | src/transfers/api/v1/Transactions_blueprint.py:20-28 | Over a repository whose invariant holds, create answers 500 iff a request to the accounts service raised and 202 iff the result is `completed` |
| TransactionsApi.GetRoute | src/transfers/api/v1/Transactions_blueprint.py:30-36 | 200 with the record iff the store has it, otherwise 404; nothing changes |
| TransactionsApi.ListResponse | src/transfers/api/v1/Transactions_blueprint.py:38-60 | An empty list is 404 with the route's message, any other list is 200 with the list |
| TransactionsApi.ByUserRoute | src/transfers/api/v1/Transactions_blueprint.py:38-44 | Over a repository whose invariant holds, the answer is the list response for the store's by-user list |
| TransactionsApi.SentRoute | src/transfers/api/v1/Transactions_blueprint.py:46-52 | The answer is the list response for the store's sent-by list, and every listed record was sent by the user |
| TransactionsApi.ReceivedRoute | src/transfers/api/v1/Transactions_blueprint.py:54-60 | The answer is the list response for the store's received-by list, and every listed record was received by the user |
| TransactionsApi.RevertResponse | src/transfers/api/v1/Transactions_blueprint.py:62-71 | None is 404; `reverted` is 200 with the record; any other result is 400 with the whole result |
| TransactionsApi.DeleteResponse | src/transfers/api/v1/Transactions_blueprint.py:73-83 | None is 404; `deleted` is 200 with the record; any other result is 400 with the whole result; a raise is 500 |
| TransactionsApi.RevertRouteCodes | src/transfers/api/v1/Transactions_blueprint.py:62-71 | Over a repository whose invariant holds, revert answers 500 iff the service raised and 404 iff the id is unknown |
| TransactionsApi.DeleteRouteCodes | src/transfers/api/v1/Transactions_blueprint.py:73-83 | Over a repository whose invariant holds, delete answers 404 iff the id is unknown, and 200 with the record for any record that is not `completed` |
| TransactionsApi.PutStatusRoute | src/transfers/api/v1/Transactions_blueprint.py:86-101 | A truthy body that is not a JSON object raises and is 500; a missing or empty status is 400 before the service is asked; otherwise a raise is 500, None is 404, `updated` is 200 and any other result is 400 |
| TransactionsApi.PutStatusChecksFirst | src/transfers/api/v1/Transactions_blueprint.py:88-91 | A body that raises, or names no usable status, gets the same answer whatever the service would answer |
| RateLimiter.ClientIdentity | src/transfers/middleware/RateLimiter.py:20-23 | A request without a remote address, or with an empty one, counts as "unknown" |
| RateLimiter.WindowIndex | src/transfers/middleware/RateLimiter.py:25 | The window index is the floor of the time over the window length |
| RateLimiter.WindowIndexUnique | src/transfers/middleware/RateLimiter.py:25 | An instant lies in window `i` iff its index is `i` |
| RateLimiter.CheckLimit | src/transfers/middleware/RateLimiter.py:14-39 | With no store, admit and count nothing; when the increment fails, admit with nothing changed; otherwise the counter goes up by one, its expiry is set only when it becomes 1, and the request is refused iff the new count is above the limit (a failed first expiry admits) |
| RateLimiter.ExpiryOutlivesWindow | src/transfers/middleware/RateLimiter.py:31-32 | A counter's expiry, set at its first request, falls no earlier than the end of its window |
| RateLimiter.OtherKeysUntouched | src/transfers/middleware/RateLimiter.py:25-30 | A request changes no counter but its own client's in its own window |
| RateLimiter.Burst | src/transfers/middleware/RateLimiter.py:14-39 | A burst of `n` requests gives `n` verdicts |
| RateLimiter.BurstAdmits | src/transfers/middleware/RateLimiter.py:28-39 | Within one window the count grows by one per request, and the `i`-th request is admitted iff the count before the burst plus `i + 1` is at most the limit |
| RateLimiter.FiftyThenRefused | src/transfers/middleware/RateLimiter.py:8-39 | With the defaults and a fresh window, fifty requests pass and the fifty-first is refused |
| RateLimiter.NewWindowStartsOver | src/transfers/middleware/RateLimiter.py:25-26 | Requests in one window leave a later window's count at zero, so its first request passes whenever the limit is at least one |
| RateLimiter.BurstElsewhere | src/transfers/middleware/RateLimiter.py:25-30 | A burst changes no counter but its own |
| RateLimiter.FailOpen | src/transfers/middleware/RateLimiter.py:15-18 | Without a store, or when incrementing fails, the request is admitted and nothing is counted |

## Left out

- `ServiceClient` and its circuit breaker: `TransferService` never uses it. The breaker lives in a library that is not part of this model, and the external time lookup only fills a field nothing reads.
- `update_status` of the transfer service: `put_status` calls it, but `Transfers_service.py` defines no such method. As written, every PUT with a non-empty status therefore raises `AttributeError` and answers 500. `TransactionsApi.PutStatusRoute` takes the service's answer as a function parameter and models only the route's own mapping. The status-transition table is not modelled.
- Backing-store removal: `TransfersRepository` defines no `delete_transaction`, yet the decorator and the service call it. As written, that call raises `AttributeError`, so every DELETE of an existing record answers 500. For a `completed` record the raise comes after the revert has already moved the ledger and marked the record `reverted`. `TransfersRepository.Delete` is the "remove by id, return the removed record or nothing" that those two callers expect.
- Balance snapshots and `gmt_time`: the service never fills them in. They are carried in the record as absent values and never interpreted; floating point is not modelled.
- MongoDB, Redis and HTTP I/O: each is an in-memory map or a function call.
- Cache reliability: the decorator logs and swallows every Redis error. A lost invalidation would break coherence, so the model assumes each cache operation takes effect. Time-to-live expiry is covered by `CachedTransfersRepository.DropKeepsInvariant`: an expiry is one more dropped entry.
- Concurrency: concurrent sagas on one account, async interleavings, and the non-atomic read-through populate are not modelled. Each operation runs alone.
- Request parsing: JSON decoding and pydantic validation are not modelled. A body is null, rejected by the request model (a validation exception, hence 500), or parsed. The status PUT, which validates nothing, instead sees a falsy body, a truthy non-object (whose missing `get` gives 500), or an object.
- Route-level request validation of `TransactionCreate` by `validate_request` happens before the view, so it is not modelled.
- IBAN generation: the `schwifty` random IBAN is a parameter that must not already be in use. Duplicate IBANs are not modelled.
- Clock: the account creation time and the rate limiter's clock are parameters. `time.time()` is a float in the source, and the model takes whole seconds.
- Result ordering: query results come back in id-issue order, a stand-in for the collection's natural order. Only which records are listed is claimed.
- Status strings other than the four the transfer core writes are not modelled, because nothing in the core writes them.
- Rate limiter attachment: `RateLimiter` is not attached by the transfers app. Its client lookup reads `current_app.request`, which the application object does not have, so in practice every request counts as "unknown". `RateLimiter.ClientIdentity` models the intended lookup, with the remote address as a parameter.
- Framework behaviour when a view returns `None` (for example when `update_transaction_status` finds nothing after a `completed` create): the model answers 500 for such a view.
- TransferProperties.RevertOutcomes: the clause "a refused re-credit is the only way the ledger differs" is stated for a positive quantity only. The store never holds a non-positive quantity from a create, but the model does not carry that as an invariant.
- TransferProperties.RevertConservesTotal: the total is claimed conserved only for a positive quantity, for the same reason.
- TransferService.CompensationRestores: stated for a positive quantity only, for the same reason.
- ObjectId.Parse: a 24-character string with ASCII whitespace before some hex pairs is accepted by `ObjectId`, because `bytes.fromhex` skips such whitespace, and yields an id shorter than 12 bytes. The model treats it as malformed. Every stored id has 12 bytes, so a lookup, status update or removal through such a spelling finds nothing either way.
- LedgerLink.Patch: the request reaches the account keyed by exactly the party string, as with an escaped URL. The code as written differs for parties that are not plain path segments, and for URLs the HTTP client refuses (see "## Findings"); `LedgerLink.PatchAsWritten` models that.
- The accounts base URL is a parameter of the as-written members. Routing a `../` path to the general update assumes the base URL has no path of its own. Reasons other than length and control characters for the client to refuse a URL (a malformed host or port in the base) are not modelled.
- LedgerLink.Patch: an error status is taken to mean the accounts service did not apply the change, and a status below 400 that it did. The code decides on the status alone. A gateway's 502 or 504 after the change was applied, or a 500 after the update was written, would leave a `failed` record with the ledger changed. This is not modelled.
- TransferService.Move: stated for requests addressed to exactly the party strings. For the code as written, it holds when both parties are plain path segments in sendable URLs (`TransferService.MoveAsWritten`); other parties are not covered.
- TransferProperties.Transferred: describes the ledger for requests addressed to exactly the party strings. For the code as written, it holds only when both parties are plain path segments in sendable URLs.
- TransferProperties.TransferredTotal: holds for the code as written only when both parties are plain path segments in sendable URLs. `TransferProperties.DotSegmentSenderAddsMoney` shows a completed transfer that adds money.
- TransferProperties.MoveTotal: holds for the code as written only when both parties are plain path segments in sendable URLs, for the same reason.
- TransferProperties.CreateLedger: holds for the code as written only when both parties are plain path segments in sendable URLs. For other parties, a `completed` record need not mean that the sender paid.
- TransferProperties.CreateConservesTotal: holds for the code as written only when both parties are plain path segments in sendable URLs.
- TransferProperties.CreateCompletesIffAccepted: holds for the code as written only when both parties are plain path segments in sendable URLs. `TransferProperties.QuerySuffixesMeetAtOneAccount` shows a create that completes with neither party an account.
- TransferProperties.RevertOutcomes: `reverted` means the receiver paid the sender only for plain-segment parties in sendable URLs in the code as written. A record created with a `../` sender is reverted by debiting the receiver and crediting nothing.
- TransferProperties.RevertConservesTotal: holds for the code as written only when both parties are plain path segments in sendable URLs.
- TransferProperties.CreateThenRevert: holds for the code as written only when both parties are plain path segments in sendable URLs.
- TransactionsApi.PutStatusRoute: only the route's mapping is modelled, since the service method it calls does not exist in the source. As written, every PUT with a non-empty status answers 500. A truthy `status` entry that is not a string is not modelled; the body's `status` is a string or absent.

## Findings

| source | as written | input that shows it | evidently intended | confidence | as-written member | corrected member |
|---|---|---|---|---|---|---|
| src/transfers/db/RedisCachedTransfersRepository.py:82-92 | The decorator's status update calls the parent's update, and the parent re-reads the record through `self.find_transaction_by_id`, which is the decorator's cached read | `revert_transaction` on a `completed` record through `TransferService(RedisCachedTransfersRepository(...))`: the revert's own lookup caches the record, so the status update returns the cached copy, and the result carries status `completed` although the stored record is `reverted`. The routes never build such a service | The refreshed record from the store is returned | high (not executed) | CachedAsWritten.UpdateReturnsStaleRecord | CachedTransfersRepository.UpdateStatus |
| src/transfers/db/RedisCachedTransfersRepository.py:76-79 | Participants' lists are dropped only when the participant is truthy, so the empty string is never dropped | A cached list for user `""`, then an insert with sender `""`: the cached list stays one record short | Both participants' lists are always dropped | medium (not executed) | CachedAsWritten.EmptySenderListStaysStale | CachedTransfersRepository.Insert |
| src/transfers/db/RedisCachedTransfersRepository.py:15-22 | The cache key is the id string as given, but `ObjectId` accepts either case of hex digit for the same id | Find `"65AB…"` (cached under that spelling), then update through `"65ab…"`: the entry under `"65AB…"` keeps the old status | Entries are keyed by the canonical printed id | medium (not executed) | CachedAsWritten.OtherSpellingStaysStale | CachedTransfersRepository.Find |
| src/accounts/db/AccountsRepository.py:48-50 | An update with no fields returns `AccountView.model_validate(find_one(...))`, which raises when no account has the IBAN | `PATCH /v1/accounts/<unknown>` with body `{}`: a validation error (500) instead of 404 | Nothing is returned, which the route maps to 404, as for a non-empty update | high (not executed) | AccountsRepository.EmptyUpdateOfMissingAccountRaises | AccountsRepository.UpdateAccount |
| src/transfers/services/Transfers_service.py:33-45 | The party string is written into the accounts URL unescaped, and `TransactionCreate` accepts any string | Sender `../ES00…` with an existing account `ES00…`: the HTTP client normalises the URL to `PATCH /v1/accounts/ES00…`, the general update, which ignores `balance` and answers 200; the receiver is credited, nothing is debited, the record is `completed`, and the total grows by the quantity | Each request reaches the balance operation of the account named exactly by the party | high (not executed) | TransferProperties.DotSegmentSenderAddsMoney | LedgerLink.Patch |

=== FILE: accounts.dfy ===
/**
 * Record shapes of the accounts service: the stored account (`AccountBase`,
 * returned as `AccountView`), the create request, the general update and the
 * balance operation.
 */
module Accounts {
  import opened Wrappers

  /** An account. `creationDate` is the clock reading taken when it was built. */
  datatype Account = Account(
    name: string,
    iban: string,
    cards: seq<string>,
    creationDate: int,
    email: string,
    subscription: string,
    balance: int,
    isBlocked: bool)

  const DefaultSubscription: string := "Free"

  /** `AccountCreate`: the fields a client may choose when opening an account. */
  datatype AccountCreate = AccountCreate(name: string, email: string, subscription: string)

  /** An `AccountCreate` body that leaves out `subscription`. */
  function CreateRequest(name: string, email: string): (r: AccountCreate)
    ensures r.subscription == "Free" && r.name == name && r.email == email
  {
    AccountCreate(name, email, DefaultSubscription)
  }

  /**
   * `AccountBase(**data, iban=...)`: the request's fields, the generated IBAN
   * and the clock; everything else takes its default.
   */
  function NewAccount(req: AccountCreate, iban: string, now: int): (a: Account)
    ensures a.balance == 0 && !a.isBlocked && a.cards == []
    ensures RequestOf(a) == req && a.iban == iban && a.creationDate == now
  {
    Account(req.name, iban, [], now, req.email, req.subscription, 0, false)
  }

  /** The client-chosen fields of an account. */
  function RequestOf(a: Account): AccountCreate {
    AccountCreate(a.name, a.email, a.subscription)
  }

  /** `AccountUpdatebalance`: one signed delta, always present. */
  datatype BalanceUpdate = BalanceUpdate(balance: int)

  /**
   * `AccountUpdate`: each field either set or left out (`None` covers both an
   * absent field and an explicit null, which `exclude_none` drops alike).
   * There is no balance field.
   */
  datatype AccountUpdate = AccountUpdate(name: Option<string>, email: Option<string>, subscription: Option<string>)

  /** `model_dump(exclude_unset=True, exclude_none=True)` is empty. */
  predicate NoFieldsSet(u: AccountUpdate) {
    u.name.None? && u.email.None? && u.subscription.None?
  }

  /** `$set` of the fields an update carries. */
  function Apply(a: Account, u: AccountUpdate): (r: Account)
    ensures r.balance == a.balance && r.isBlocked == a.isBlocked && r.iban == a.iban
    ensures r.cards == a.cards && r.creationDate == a.creationDate
    ensures NoFieldsSet(u) ==> r == a
  {
    a.(name := u.name.GetOr(a.name), email := u.email.GetOr(a.email), subscription := u.subscription.GetOr(a.subscription))
  }

  /** Each field an update sets is taken from the update; every other field is kept. */
  lemma ApplySetsOnlyGivenFields(a: Account, u: AccountUpdate)
    ensures Apply(a, u).name == (if u.name.Some? then u.name.value else a.name)
    ensures Apply(a, u).email == (if u.email.Some? then u.email.value else a.email)
    ensures Apply(a, u).subscription == (if u.subscription.Some? then u.subscription.value else a.subscription)
    ensures Apply(Apply(a, u), u) == Apply(a, u)
  {
  }
}

=== FILE: accounts_api.dfy ===
/**
 * The `/v1/accounts` blueprint: each endpoint maps the service's answer to an
 * HTTP status. A request body is either JSON `null` (or absent), a JSON value
 * the request model rejects, or one it accepts.
 */
module AccountsApi {
  import opened Wrappers
  import opened Accounts
  import opened AccountsRepository
  import opened LedgerTotal
  import Service = AccountsService

  /** What `request.get_json()` followed by `Model(**raw_data)` yields. */
  datatype Body<T> = NullBody | Rejected | Parsed(value: T)

  /** A response: its status code and the account it carries, if any. */
  datatype Http = Http(code: int, account: Option<Account>)

  /** An exception that escapes a view becomes a 500. */
  const InternalError: Http := Http(500, None)

  /** `POST /v1/accounts/`: always 201 with the new account. */
  function CreateAccount(l: Ledger, req: AccountCreate, iban: string, now: int): (r: (Http, Ledger))
    requires iban !in l
    ensures r.0.code == 201 && r.0.account.Some?
    ensures r.1 == l[iban := r.0.account.value] && r.0.account.value.balance == 0
  {
    var (a, l') := Service.CreateNewAccount(l, req, iban, now);
    (Http(201, Some(a)), l')
  }

  /** `GET /v1/accounts/<iban>`: 200 with the account, or 404. */
  function ViewAccount(l: Ledger, iban: string): (r: Http)
    ensures r.code == 200 <==> iban in l
    ensures r.code == 200 ==> r.account == Some(l[iban])
    ensures r.code != 200 ==> r == Http(404, None)
  {
    match Service.GetAccount(l, iban)
    case Some(a) => Http(200, Some(a))
    case None => Http(404, None)
  }

  /**
   * `PATCH /v1/accounts/<iban>`: 400 on a null body, then 200 or 404; an
   * update with no fields for an unknown IBAN raises in the repository, which
   * is a 500.
   */
  function UpdateAccount(l: Ledger, iban: string, body: Body<Accounts.AccountUpdate>): (r: (Http, Ledger))
    ensures body.NullBody? <==> r.0.code == 400
    ensures r.0.code == 500 <==> body.Rejected? || (body.Parsed? && NoFieldsSet(body.value) && iban !in l)
    ensures r.0.code == 200 <==> body.Parsed? && iban in l
    ensures r.0.code == 404 <==> body.Parsed? && iban !in l && !NoFieldsSet(body.value)
    ensures r.0.code == 200 ==> r.1 == l[iban := Apply(l[iban], body.value)] && r.0.account == Some(r.1[iban])
    ensures r.0.code != 200 ==> r.1 == l
  {
    match body
    case NullBody => (Http(400, None), l)
    case Rejected => (InternalError, l)
    case Parsed(u) =>
      var (res, l') := Service.AccountUpdate(l, iban, u);
      match res
      case Failure(_) => (InternalError, l')
      case Success(view) => if view.Some? then (Http(200, view), l') else (Http(404, None), l')
  }

  /**
   * `PATCH /v1/accounts/operation/<iban>`: 400 on a null body; 404 and 403 for
   * the service's markers; otherwise the account read back. A view that
   * returns `None` fails in the framework, which is a 500.
   */
  function Operation(l: Ledger, iban: string, body: Body<BalanceUpdate>): (r: (Http, Ledger))
    ensures body.NullBody? <==> r.0.code == 400
    ensures body.Parsed? && iban !in l <==> r.0.code == 404
    ensures body.Parsed? && iban in l && l[iban].balance + body.value.balance <= 0 <==> r.0.code == 403
    ensures r.0.code == 200 <==> body.Parsed? && Service.Accepts(l, iban, body.value.balance)
    ensures r.0.code == 200 ==> iban in r.1 && r.0.account == Some(r.1[iban]) && r.1[iban].balance > 0
    ensures r.0.code != 200 ==> r.1 == l
  {
    match body
    case NullBody => (Http(400, None), l)
    case Rejected => (InternalError, l)
    case Parsed(d) =>
      var (res, l') := Service.UpdateBalance(l, iban, d);
      match res
      case NotFound404 => (Http(404, None), l')
      case Forbidden403 => (Http(403, None), l')
      case Applied(view) => if view.Some? then (Http(200, view), l') else (InternalError, l')
  }

  /** A parsed balance operation never ends in a 500, and it moves the total by its delta iff it answers 200. */
  lemma OperationOutcome(l: Ledger, iban: string, d: BalanceUpdate)
    ensures Operation(l, iban, Parsed(d)).0.code in {200, 403, 404}
    ensures Total(Operation(l, iban, Parsed(d)).1) == Total(l) + (if Operation(l, iban, Parsed(d)).0.code == 200 then d.balance else 0)
  {
    Service.UpdateBalanceTotal(l, iban, d);
  }

  /** `DELETE /v1/accounts/<iban>`: 204 whether or not an account was removed. */
  function DeleteAccount(l: Ledger, iban: string): (r: (Http, Ledger))
    ensures r.0 == Http(204, None)
    ensures iban !in r.1 && r.1.Keys == l.Keys - {iban}
  {
    var (_, l') := Service.DeleteAccount(l, iban);
    (Http(204, None), l')
  }

  /** `PATCH .../block` and `.../unblock`: 204 when the account exists, else 404. */
  function SetBlocked(l: Ledger, iban: string, flag: bool): (r: (Http, Ledger))
    ensures r.0.code == 204 <==> iban in l
    ensures r.0.code != 204 ==> r.0.code == 404 && r.1 == l
    ensures r.0.code == 204 ==> iban in r.1 && r.1[iban].isBlocked == flag && r.1[iban].balance == l[iban].balance
    ensures r.0.account.None?
  {
    var (res, l') := if flag then Service.BlockAccount(l, iban) else Service.UnblockAccount(l, iban);
    if res.Some? then (Http(204, None), l') else (Http(404, None), l')
  }

  /** Blocking is visible to a read, but does not stop a balance operation. */
  lemma BlockedAccountStillOperates(l: Ledger, iban: string, d: BalanceUpdate)
    requires iban in l
    ensures
      var l1 := SetBlocked(l, iban, true).1;
      && ViewAccount(l1, iban).account.value.isBlocked
      && Operation(l1, iban, Parsed(d)).0.code == Operation(l, iban, Parsed(d)).0.code
  {
  }
}

=== FILE: accounts_repository.dfy ===
/**
 * The `accounts` collection and `AccountRepository` over it. Accounts are
 * looked up by IBAN; the collection is modelled as a map from IBAN to account.
 */
module AccountsRepository {
  import opened Wrappers
  import opened Accounts

  type Ledger = map<string, Account>

  /** `insert_account`: the IBAN is generated fresh by the caller. */
  function InsertAccount(l: Ledger, a: Account): (r: (Account, Ledger))
    requires a.iban !in l
    ensures FindByIban(r.1, a.iban) == Some(r.0) && r.0 == a
    ensures r.1 - {a.iban} == l
  {
    (a, l[a.iban := a])
  }

  /** `find_account_by_iban`. */
  function FindByIban(l: Ledger, iban: string): (r: Option<Account>)
    ensures r.None? <==> iban !in l
    ensures r.Some? ==> r.value == l[iban]
  {
    if iban in l then Some(l[iban]) else None
  }

  /** `delete_account_by_iban`: true iff an account was removed. */
  function DeleteByIban(l: Ledger, iban: string): (r: (bool, Ledger))
    ensures r.0 <==> iban in l
    ensures FindByIban(r.1, iban).None?
    ensures r.1 == l - {iban}
  {
    (iban in l, l - {iban})
  }

  /**
   * `update_account_balance`: `$set` the new balance and read the account back.
   * The balance field is required, so the update is never empty.
   */
  function UpdateBalance(l: Ledger, iban: string, data: BalanceUpdate): (r: (Option<Account>, Ledger))
    ensures r.0.None? <==> iban !in l
    ensures iban !in l ==> r.1 == l
    ensures iban in l ==> r.1 == l[iban := l[iban].(balance := data.balance)]
    ensures r.0 == FindByIban(r.1, iban)
  {
    var l' := if iban in l then l[iban := l[iban].(balance := data.balance)] else l;
    (FindByIban(l', iban), l')
  }

  /** Why a repository call raised. */
  datatype Raised = ValidationError

  /**
   * `update_account` as written: with no fields set it returns
   * `AccountView.model_validate(find(...))`, which raises for a missing account.
   */
  function UpdateAccountAsWritten(l: Ledger, iban: string, u: AccountUpdate): (r: (Result<Option<Account>, Raised>, Ledger))
    ensures r.1 == (if iban in l then l[iban := Apply(l[iban], u)] else l)
    ensures r.0.Failure? <==> NoFieldsSet(u) && iban !in l
  {
    if NoFieldsSet(u) then
      if iban in l then (Success(Some(l[iban])), l) else (Failure(ValidationError), l)
    else
      var l' := if iban in l then l[iban := Apply(l[iban], u)] else l;
      (Success(FindByIban(l', iban)), l')
  }

  /**
   * `update_account` with the missing-account case of an empty update answered
   * `None`, as the non-empty path already does.
   */
  function UpdateAccount(l: Ledger, iban: string, u: AccountUpdate): (r: (Option<Account>, Ledger))
    ensures r.0.None? <==> iban !in l
    ensures r.1 == (if iban in l then l[iban := Apply(l[iban], u)] else l)
    ensures r.0 == FindByIban(r.1, iban)
    ensures NoFieldsSet(u) ==> r == (FindByIban(l, iban), l)
    ensures UpdateAccountAsWritten(l, iban, u).0.Success? ==> UpdateAccountAsWritten(l, iban, u) == (Success(r.0), r.1)
  {
    var l' := if iban in l then l[iban := Apply(l[iban], u)] else l;
    assert NoFieldsSet(u) && iban in l ==> l' == l;
    (FindByIban(l', iban), l')
  }

  /** An empty update on an unknown IBAN raises as written, where `None` (404) is meant. */
  lemma EmptyUpdateOfMissingAccountRaises(l: Ledger, iban: string)
    requires iban !in l
    ensures UpdateAccountAsWritten(l, iban, AccountUpdate(None, None, None)).0 == Failure(ValidationError)
    ensures UpdateAccount(l, iban, AccountUpdate(None, None, None)) == (None, l)
  {
  }

  /** Set `isBlocked` to `flag` on the account, if there is one, and read it back. */
  function SetBlocked(l: Ledger, iban: string, flag: bool): (r: (Option<Account>, Ledger))
    ensures r.0.None? <==> iban !in l
    ensures iban !in l ==> r.1 == l
    ensures iban in l ==> r.1 == l[iban := l[iban].(isBlocked := flag)]
    ensures r.0.Some? ==> r.0.value.isBlocked == flag && r.0.value.(isBlocked := l[iban].isBlocked) == l[iban]
  {
    var l' := if iban in l then l[iban := l[iban].(isBlocked := flag)] else l;
    (FindByIban(l', iban), l')
  }

  /** `block_account_by_iban`. */
  function Block(l: Ledger, iban: string): (r: (Option<Account>, Ledger))
    ensures r.0.Some? <==> iban in l
    ensures r.0.Some? ==> r.0.value.isBlocked && r.0.value.(isBlocked := l[iban].isBlocked) == l[iban]
    ensures r.1 - {iban} == l - {iban}
  {
    SetBlocked(l, iban, true)
  }

  /** `unblock_account_by_iban`. */
  function Unblock(l: Ledger, iban: string): (r: (Option<Account>, Ledger))
    ensures r.0.Some? <==> iban in l
    ensures r.0.Some? ==> !r.0.value.isBlocked && r.0.value.(isBlocked := l[iban].isBlocked) == l[iban]
    ensures r.1 - {iban} == l - {iban}
  {
    SetBlocked(l, iban, false)
  }

  /** Unblocking undoes blocking, and blocking undoes unblocking, of an unblocked / blocked account. */
  lemma BlockUnblockRoundTrip(l: Ledger, iban: string)
    requires iban in l
    ensures !l[iban].isBlocked ==> Unblock(Block(l, iban).1, iban).1 == l
    ensures l[iban].isBlocked ==> Block(Unblock(l, iban).1, iban).1 == l
  {
  }
}

=== FILE: accounts_service.dfy ===
/**
 * `AccountService`: the balance rule, and the delegations to the repository.
 */
module AccountsService {
  import opened Wrappers
  import opened Accounts
  import opened AccountsRepository
  import opened LedgerTotal

  /** `AccountView | EmptyPatch403 | EmptyPatch404`. */
  datatype BalanceReply = Applied(view: Option<Account>) | Forbidden403 | NotFound404

  /** The balance an operation of `delta` leaves, when the ledger accepts it. */
  predicate Accepts(l: Ledger, iban: string, delta: int) {
    iban in l && l[iban].balance + delta > 0
  }

  /**
   * `account_update_balance`: an unknown IBAN is the 404 marker; a delta that
   * would leave the balance at or below zero is the 403 marker; otherwise the
   * new balance is stored and the account read back.
   */
  function UpdateBalance(l: Ledger, iban: string, data: BalanceUpdate): (r: (BalanceReply, Ledger))
    ensures r.0.NotFound404? <==> iban !in l
    ensures r.0.Forbidden403? <==> iban in l && l[iban].balance + data.balance <= 0
    ensures r.0.Applied? <==> Accepts(l, iban, data.balance)
    ensures !r.0.Applied? ==> r.1 == l
    ensures r.0.Applied? ==> r.1 == l[iban := l[iban].(balance := l[iban].balance + data.balance)]
    ensures r.0.Applied? ==> r.0.view == Some(r.1[iban]) && r.1[iban].balance > 0
  {
    match FindByIban(l, iban)
    case None => (NotFound404, l)
    case Some(acc) =>
      if acc.balance + data.balance > 0 then
        var (view, l') := AccountsRepository.UpdateBalance(l, iban, BalanceUpdate(acc.balance + data.balance));
        (Applied(view), l')
      else
        (Forbidden403, l)
  }

  /** A balance operation moves the total by its delta when applied, and not at all otherwise. */
  lemma UpdateBalanceTotal(l: Ledger, iban: string, data: BalanceUpdate)
    ensures Total(UpdateBalance(l, iban, data).1) == Total(l) + (if Accepts(l, iban, data.balance) then data.balance else 0)
  {
    if Accepts(l, iban, data.balance) {
      TotalReplace(l, iban, l[iban].(balance := l[iban].balance + data.balance));
    }
  }

  /** No balance operation can leave a negative balance, and none can leave a balance at exactly zero. */
  lemma UpdateBalanceKeepsNonNegative(l: Ledger, iban: string, data: BalanceUpdate)
    requires NonNegative(l)
    ensures NonNegative(UpdateBalance(l, iban, data).1)
    ensures UpdateBalance(l, iban, data).0.Applied? ==> UpdateBalance(l, iban, data).1[iban].balance != 0
  {
  }

  /** The operation never consults `isBlocked`: a blocked and an unblocked account are treated alike. */
  lemma UpdateBalanceIgnoresBlocked(l: Ledger, iban: string, data: BalanceUpdate, flag: bool)
    requires iban in l
    ensures
      var l2 := l[iban := l[iban].(isBlocked := flag)];
      var (r1, m1) := UpdateBalance(l, iban, data);
      var (r2, m2) := UpdateBalance(l2, iban, data);
      && r1.Applied? == r2.Applied? && r1.Forbidden403? == r2.Forbidden403?
      && m2 == m1[iban := m1[iban].(isBlocked := flag)]
  {
    var l2 := l[iban := l[iban].(isBlocked := flag)];
    assert l2[iban := l2[iban].(isBlocked := l[iban].isBlocked)] == l;
  }

  /** `get_account_by_iban`. */
  function GetAccount(l: Ledger, iban: string): (r: Option<Account>)
    ensures r.None? <==> iban !in l
    ensures r.Some? ==> r.value == l[iban]
  {
    FindByIban(l, iban)
  }

  /**
   * `account_update`: the general update, which has no balance field. It
   * passes the repository's answer on, so an update with no fields for an
   * unknown IBAN raises.
   */
  function AccountUpdate(l: Ledger, iban: string, u: Accounts.AccountUpdate): (r: (Result<Option<Account>, Raised>, Ledger))
    ensures r.0.Failure? <==> NoFieldsSet(u) && iban !in l
    ensures r.0.Success? ==> (r.0.value.None? <==> iban !in l)
    ensures r.0.Success? && r.0.value.Some? ==> r.0.value.value == Apply(l[iban], u)
    ensures r.1.Keys == l.Keys
    ensures forall i :: i in l ==> r.1[i].balance == l[i].balance && r.1[i].isBlocked == l[i].isBlocked
  {
    UpdateAccountAsWritten(l, iban, u)
  }

  /** Only the balance operation changes a balance: the general update leaves the total alone. */
  lemma AccountUpdateKeepsTotal(l: Ledger, iban: string, u: Accounts.AccountUpdate)
    ensures Total(AccountUpdate(l, iban, u).1) == Total(l)
  {
    if iban in l {
      TotalReplace(l, iban, Apply(l[iban], u));
    }
  }

  /** `delete_account`: true iff an account was removed. */
  function DeleteAccount(l: Ledger, iban: string): (r: (bool, Ledger))
    ensures r.0 <==> iban in l
    ensures iban !in r.1 && r.1.Keys == l.Keys - {iban}
  {
    DeleteByIban(l, iban)
  }

  /** `block_account`. */
  function BlockAccount(l: Ledger, iban: string): (r: (Option<Account>, Ledger))
    ensures r.0.Some? <==> iban in l
    ensures r.0.Some? ==> r.0.value.isBlocked && r.0.value.balance == l[iban].balance
  {
    Block(l, iban)
  }

  /** `unblock_account`. */
  function UnblockAccount(l: Ledger, iban: string): (r: (Option<Account>, Ledger))
    ensures r.0.Some? <==> iban in l
    ensures r.0.Some? ==> !r.0.value.isBlocked && r.0.value.balance == l[iban].balance
  {
    Unblock(l, iban)
  }

  /**
   * `create_new_account`, with the randomly generated IBAN and the clock
   * reading passed in. A new account holds nothing.
   */
  function CreateNewAccount(l: Ledger, req: AccountCreate, iban: string, now: int): (r: (Account, Ledger))
    requires iban !in l
    ensures r.0.balance == 0 && r.0.iban == iban && RequestOf(r.0) == req
    ensures r.1 == l[iban := r.0]
  {
    InsertAccount(l, NewAccount(req, iban, now))
  }

  /** Opening an account adds nothing to the total. */
  lemma CreateNewAccountTotal(l: Ledger, req: AccountCreate, iban: string, now: int)
    requires iban !in l
    ensures Total(CreateNewAccount(l, req, iban, now).1) == Total(l)
  {
    var l' := CreateNewAccount(l, req, iban, now).1;
    TotalRemove(l', iban);
    assert l' - {iban} == l;
  }

  /** Every account operation keeps all balances non-negative. */
  lemma OperationsKeepNonNegative(l: Ledger, iban: string, u: Accounts.AccountUpdate, flag: bool)
    requires NonNegative(l)
    ensures NonNegative(AccountUpdate(l, iban, u).1)
    ensures NonNegative(DeleteAccount(l, iban).1)
    ensures NonNegative(SetBlocked(l, iban, flag).1)
    ensures iban !in l ==> forall req, now :: NonNegative(CreateNewAccount(l, req, iban, now).1)
  {
  }
}

=== FILE: cached_as_written.dfy ===
/**
 * `RedisCachedTransfersRepository` exactly as written, kept beside the
 * corrected decorator to exhibit its three defects:
 *  - entries are keyed by the id string the caller passed, although the store
 *    accepts either case of hex digit for the same ObjectId;
 *  - participants are invalidated only when truthy, so the empty string never is;
 *  - the parent's `update_transaction_status` re-reads the record through
 *    `self.find_transaction_by_id`, which is the decorator's cached read, so a
 *    cached record is returned with its old status.
 * The per-user read is unchanged and is CachedTransfersRepository.FindByUser.
 */
module CachedAsWritten {
  import opened Wrappers
  import opened ObjectId
  import opened Transactions
  import Plain = TransfersRepository
  import C = CachedTransfersRepository

  /** `if sender: ...` / `if receiver: ...` around `_invalidate_user_cache`. */
  function DropTruthyParticipants(c: C.Cache, t: TxBase): (r: C.Cache)
    ensures r.txs == c.txs
    ensures forall u :: u in r.lists <==> u in c.lists && (u == "" || (u != t.sender && u != t.receiver))
    ensures forall u :: u in r.lists ==> r.lists[u] == c.lists[u]
    ensures t.sender != "" && t.receiver != "" ==> r == C.DropParticipants(c, t)
  {
    var c1 := if t.sender != "" then C.Drop(c, C.UserEntry(t.sender)) else c;
    if t.receiver != "" then C.Drop(c1, C.UserEntry(t.receiver)) else c1
  }

  /** `find_transaction_by_id`, keyed by the raw id string. */
  function Find(c: C.Cache, s: Plain.Store, id: string): (r: (Option<TxView>, C.Cache))
    ensures id in c.txs ==> r == (Some(c.txs[id]), c)
    ensures id !in c.txs ==> r.0 == Plain.Find(s, id)
    ensures id !in c.txs ==> r.1 == (if r.0.Some? then c.(txs := c.txs[id := r.0.value]) else c)
    ensures C.Coherent(c, s) ==> r.0 == Plain.Find(s, id) && C.Coherent(r.1, s)
  {
    if id in c.txs then (Some(c.txs[id]), c)
    else
      var found := Plain.Find(s, id);
      (found, if found.Some? then c.(txs := c.txs[id := found.value]) else c)
  }

  /** `insert_transaction`: store, then drop the truthy participants' lists. */
  function Insert(c: C.Cache, s: Plain.Store, doc: TxBase, newId: Oid): (r: (TxView, Plain.Store, C.Cache))
    requires Plain.Fresh(s, newId)
    ensures (r.0, r.1) == Plain.Insert(s, doc, newId)
    ensures doc.sender != "" ==> doc.sender !in r.2.lists
    ensures doc.sender == "" && doc.receiver != "" ==> r.2.lists == c.lists - {doc.receiver}
  {
    var (v, s') := Plain.Insert(s, doc, newId);
    (v, s', DropTruthyParticipants(c, doc))
  }

  /**
   * `update_transaction_status`: the parent updates the store and re-reads
   * through the decorator's Find; then the raw-id entry and the truthy
   * participants' lists are dropped.
   */
  function UpdateStatus(c: C.Cache, s: Plain.Store, id: string, st: Status): (r: (Option<TxView>, Plain.Store, C.Cache))
    ensures r.1 == Plain.UpdateStatus(s, id, st).1
    ensures C.Coherent(c, s) ==> (r.0.Some? <==> Plain.UpdateStatus(s, id, st).0.Some?)
    ensures r.0.Some? ==> id !in r.2.txs
  {
    if !Parses(id) then (None, s, c)
    else
      var s' := Plain.UpdateStatus(s, id, st).1;
      var (res, c1) := Find(c, s', id);
      if res.Some? then (res, s', DropTruthyParticipants(C.Drop(c1, C.TxEntry(id)), res.value.tx))
      else (res, s', c1)
  }

  /** Removal through the decorator: remove, then drop the raw-id entry and the truthy lists. */
  function Delete(c: C.Cache, s: Plain.Store, id: string): (r: (Option<TxView>, Plain.Store, C.Cache))
    ensures (r.0, r.1) == Plain.Delete(s, id)
    ensures r.0.None? ==> r.2 == c
    ensures r.0.Some? ==> id !in r.2.txs
  {
    var (res, s') := Plain.Delete(s, id);
    if res.Some? then (res, s', DropTruthyParticipants(C.Drop(c, C.TxEntry(id)), res.value.tx))
    else (res, s', c)
  }

  /**
   * A status update on a cached record returns the cached copy, still carrying
   * the old status, while the store holds the new one.
   */
  lemma UpdateReturnsStaleRecord(c: C.Cache, s: Plain.Store, id: string, st: Status)
    requires Parses(id) && id in c.txs && C.Coherent(c, s)
    requires c.txs[id].tx.status != st
    ensures
      var r := UpdateStatus(c, s, id, st);
      && r.0 == Some(c.txs[id])
      && r.0.value.tx.status != st
      && r.0 != Plain.Find(r.1, id)
      && r.0 != C.UpdateStatus(c, s, id, st).0
  {
    var r := UpdateStatus(c, s, id, st);
    assert Plain.Find(s, id).Some?;
    assert Plain.UpdateStatus(s, id, st).0 == Plain.Find(r.1, id);
  }

  /**
   * Inserting a record whose sender is the empty string leaves a cached list
   * for the empty user in place, although that list has just gained a record.
   */
  lemma EmptySenderListStaysStale(c: C.Cache, s: Plain.Store, doc: TxBase, newId: Oid)
    requires Plain.Valid(s) && Plain.Fresh(s, newId) && C.Coherent(c, s)
    requires doc.sender == "" && doc.receiver != "" && "" in c.lists
    ensures
      var r := Insert(c, s, doc, newId);
      && r.2.lists[""] == c.lists[""]
      && Plain.FindByUser(r.1, "") == c.lists[""] + [r.0]
      && !C.Coherent(r.2, r.1)
  {
    var r := Insert(c, s, doc, newId);
    var s' := r.1;
    Plain.SelectAppend(s.order, s'.docs, newId, "", Plain.Involving);
    forall i | 0 <= i < |s.order|
      ensures Plain.SameFor(s.docs, s'.docs, "", Plain.Involving, s.order[i])
    {
      assert s.order[i] != newId;
    }
    Plain.SelectAgrees(s.order, s.docs, s'.docs, "", Plain.Involving);
    assert |Plain.FindByUser(s', "")| == |c.lists[""]| + 1;
  }

  /**
   * Updating a record through one spelling of its id leaves an entry cached
   * under another spelling (different case of the hex letters) in place, with
   * the old status.
   */
  lemma OtherSpellingStaysStale(c: C.Cache, s: Plain.Store, a: string, b: string, st: Status)
    requires Parses(a) && Parse(a) == Parse(b) && a != b
    requires a in c.txs && C.Coherent(c, s)
    requires c.txs[a].tx.status != st
    ensures
      var r := UpdateStatus(c, s, b, st);
      && a in r.2.txs && r.2.txs[a] == c.txs[a]
      && Plain.Find(r.1, a).Some? && Plain.Find(r.1, a).value.tx.status == st
      && !C.Coherent(r.2, r.1)
  {
    var r := UpdateStatus(c, s, b, st);
    var k := Parse(a).value;
    assert Plain.Find(s, a).Some?;
    assert Plain.Find(r.1, a) == Plain.Find(r.1, b);
  }
}

=== FILE: cached_repository.dfy ===
/**
 * The cache-aside decorator over the transaction store
 * (`RedisCachedTransfersRepository`), with the three defects recorded in the
 * README corrected: entries are keyed by the canonical printed ObjectId, both
 * participants' list entries are always dropped, and the record returned by a
 * status update is read from the backing store. The code as written is in
 * module CachedAsWritten.
 *
 * The cache is the Redis keyspace the decorator owns. `txs` holds the values
 * under `transaction:<id>` and `lists` those under `user_transactions:<user>`;
 * ParseKeyText shows the two families of keys never collide, so two maps
 * describe the one keyspace exactly. Values are stored as JSON and read back
 * unchanged, so they are modelled as the records themselves.
 */
module CachedTransfersRepository {
  import opened Wrappers
  import opened ObjectId
  import opened Transactions
  import Plain = TransfersRepository

  const TxPrefix: string := "transaction:"
  const UserPrefix: string := "user_transactions:"

  datatype CacheKey = TxEntry(id: string) | UserEntry(user: string)

  /** `_get_transaction_key` and `_get_user_transactions_key`. */
  function KeyText(k: CacheKey): (key: string)
    ensures k.TxEntry? ==> |key| >= |TxPrefix| && key[..|TxPrefix|] == TxPrefix && key[|TxPrefix|..] == k.id
    ensures k.UserEntry? ==> |key| >= |UserPrefix| && key[..|UserPrefix|] == UserPrefix && key[|UserPrefix|..] == k.user
  {
    match k
    case TxEntry(id) => TxPrefix + id
    case UserEntry(u) => UserPrefix + u
  }

  /** Which entry, if any, a Redis key names. */
  function ParseKey(key: string): Option<CacheKey> {
    if |key| >= |TxPrefix| && key[..|TxPrefix|] == TxPrefix then Some(TxEntry(key[|TxPrefix|..]))
    else if |key| >= |UserPrefix| && key[..|UserPrefix|] == UserPrefix then Some(UserEntry(key[|UserPrefix|..]))
    else None
  }

  /** Every key the decorator builds names exactly the entry it was built for. */
  lemma ParseKeyText(k: CacheKey)
    ensures ParseKey(KeyText(k)) == Some(k)
  {
    var key := KeyText(k);
    match k
    case TxEntry(id) =>
      assert key[..|TxPrefix|] == TxPrefix;
      assert key[|TxPrefix|..] == id;
    case UserEntry(u) =>
      assert key[0] == 'u' && TxPrefix[0] == 't';
      assert key[..|UserPrefix|] == UserPrefix;
      assert key[|UserPrefix|..] == u;
  }

  /** A per-transaction key is never a per-user key, and distinct entries have distinct keys. */
  lemma KeysDistinct(a: CacheKey, b: CacheKey)
    ensures KeyText(a) == KeyText(b) <==> a == b
  {
    ParseKeyText(a);
    ParseKeyText(b);
  }

  datatype Cache = Cache(txs: map<string, TxView>, lists: map<string, seq<TxView>>)

  const EmptyCache: Cache := Cache(map[], map[])

  /** Every cached entry equals what the backing store would return for its key. */
  ghost predicate Coherent(c: Cache, s: Plain.Store) {
    && (forall id :: id in c.txs ==> Plain.Find(s, id) == Some(c.txs[id]))
    && (forall u :: u in c.lists ==> c.lists[u] == Plain.FindByUser(s, u))
  }

  /** What the corrected decorator keeps true between operations. */
  ghost predicate Invariant(c: Cache, s: Plain.Store) {
    && Plain.Valid(s)
    && Coherent(c, s)
    && (forall id :: id in c.txs ==> IsCanonical(id))
  }

  /** `redis.delete(key)`. */
  function Drop(c: Cache, k: CacheKey): (r: Cache)
    ensures forall id :: id in r.txs <==> id in c.txs && k != TxEntry(id)
    ensures forall u :: u in r.lists <==> u in c.lists && k != UserEntry(u)
    ensures forall id :: id in r.txs ==> r.txs[id] == c.txs[id]
    ensures forall u :: u in r.lists ==> r.lists[u] == c.lists[u]
  {
    match k
    case TxEntry(id) => c.(txs := c.txs - {id})
    case UserEntry(u) => c.(lists := c.lists - {u})
  }

  /** Dropping any entry (an expiry, a manual delete) keeps the cache coherent. */
  lemma DropKeepsInvariant(c: Cache, s: Plain.Store, k: CacheKey)
    requires Invariant(c, s)
    ensures Invariant(Drop(c, k), s)
  {
  }

  /** `_invalidate_user_cache` for both participants. */
  function DropParticipants(c: Cache, t: TxBase): (r: Cache)
    ensures r.txs == c.txs
    ensures forall u :: u in r.lists <==> u in c.lists && u != t.sender && u != t.receiver
    ensures forall u :: u in r.lists ==> r.lists[u] == c.lists[u]
  {
    Drop(Drop(c, UserEntry(t.sender)), UserEntry(t.receiver))
  }

  /**
   * `find_transaction_by_id`: a hit is answered from the cache alone; a miss
   * reads the backing store and caches the record only if one was found.
   */
  function Find(c: Cache, s: Plain.Store, id: string): (r: (Option<TxView>, Cache))
    ensures !Parses(id) ==> r == (None, c)
    ensures Parses(id) && Parse(id).value in c.txs ==> r == (Some(c.txs[Parse(id).value]), c)
    ensures Parses(id) && Parse(id).value !in c.txs ==>
      && r.0 == Plain.Find(s, id)
      && r.1 == (if r.0.Some? then c.(txs := c.txs[Parse(id).value := r.0.value]) else c)
    ensures Invariant(c, s) ==> r.0 == Plain.Find(s, id) && Invariant(r.1, s)
  {
    match Parse(id)
    case None => (None, c)
    case Some(k) =>
      ParsePrinted(k);
      if k in c.txs then (Some(c.txs[k]), c)
      else
        var found := Plain.Find(s, id);
        (found, if found.Some? then c.(txs := c.txs[k := found.value]) else c)
  }

  /** `find_transactions_by_user`: as Find, but only non-empty lists are cached. */
  function FindByUser(c: Cache, s: Plain.Store, u: string): (r: (seq<TxView>, Cache))
    ensures u in c.lists ==> r == (c.lists[u], c)
    ensures u !in c.lists ==> r.0 == Plain.FindByUser(s, u)
    ensures u !in c.lists && |r.0| == 0 ==> r.1 == c
    ensures u !in c.lists && |r.0| > 0 ==> r.1 == c.(lists := c.lists[u := r.0])
    ensures Invariant(c, s) ==> r.0 == Plain.FindByUser(s, u) && Invariant(r.1, s)
  {
    if u in c.lists then (c.lists[u], c)
    else
      var found := Plain.FindByUser(s, u);
      (found, if |found| > 0 then c.(lists := c.lists[u := found]) else c)
  }

  /** `insert_transaction`: store, then drop both participants' lists. */
  function Insert(c: Cache, s: Plain.Store, doc: TxBase, newId: Oid): (r: (TxView, Plain.Store, Cache))
    requires Plain.Fresh(s, newId)
    ensures (r.0, r.1) == Plain.Insert(s, doc, newId)
    ensures r.2.txs == c.txs
    ensures doc.sender !in r.2.lists && doc.receiver !in r.2.lists
    ensures Invariant(c, s) ==> Invariant(r.2, r.1)
  {
    var (v, s') := Plain.Insert(s, doc, newId);
    var c' := DropParticipants(c, doc);
    InsertKeepsInvariant(c, s, doc, newId);
    (v, s', c')
  }

  lemma InsertKeepsInvariant(c: Cache, s: Plain.Store, doc: TxBase, newId: Oid)
    requires Plain.Fresh(s, newId)
    ensures Invariant(c, s) ==> Invariant(DropParticipants(c, doc), Plain.Insert(s, doc, newId).1)
  {
    if Invariant(c, s) {
      var s' := Plain.Insert(s, doc, newId).1;
      var c' := DropParticipants(c, doc);
      forall id | id in c'.txs
        ensures Plain.Find(s', id) == Some(c'.txs[id])
      {
        assert Plain.Find(s, id) == Some(c.txs[id]);
      }
      forall u | u in c'.lists
        ensures c'.lists[u] == Plain.FindByUser(s', u)
      {
        assert !Plain.Matches(Plain.Involving, u, doc);
        Plain.SelectAppend(s.order, s'.docs, newId, u, Plain.Involving);
        forall i | 0 <= i < |s.order|
          ensures Plain.SameFor(s.docs, s'.docs, u, Plain.Involving, s.order[i])
        {
          assert s.order[i] != newId;
        }
        Plain.SelectAgrees(s.order, s.docs, s'.docs, u, Plain.Involving);
      }
    }
  }

  /**
   * `update_transaction_status`: update the backing store, then, when the
   * record exists, drop its entry and both participants' lists.
   */
  function UpdateStatus(c: Cache, s: Plain.Store, id: string, st: Status): (r: (Option<TxView>, Plain.Store, Cache))
    ensures (r.0, r.1) == Plain.UpdateStatus(s, id, st)
    ensures r.0.None? ==> r.2 == c
    ensures r.0.Some? ==> Parse(id).value !in r.2.txs && r.0.value.tx.sender !in r.2.lists && r.0.value.tx.receiver !in r.2.lists
    ensures Invariant(c, s) ==> r.0 == Plain.Find(r.1, id) && Invariant(r.2, r.1)
  {
    var (res, s') := Plain.UpdateStatus(s, id, st);
    if res.Some? then
      var c' := DropParticipants(Drop(c, TxEntry(Parse(id).value)), res.value.tx);
      UpdateKeepsInvariant(c, s, id, st);
      (res, s', c')
    else
      NoUpdateKeepsStore(s, id, st);
      (res, s', c)
  }

  lemma NoUpdateKeepsStore(s: Plain.Store, id: string, st: Status)
    requires Plain.UpdateStatus(s, id, st).0.None?
    ensures Plain.UpdateStatus(s, id, st).1 == s
  {
    var s' := Plain.UpdateStatus(s, id, st).1;
    assert s'.docs == s.docs;
  }

  /** A record changed in place, outside the lists of `u`, leaves the query for `u` alone. */
  lemma RecordChangeOutsideList(s: Plain.Store, s': Plain.Store, k: Oid, u: string)
    requires s'.order == s.order && s'.docs.Keys <= s.docs.Keys
    requires forall k' :: k' in s'.docs && k' != k ==> s'.docs[k'] == s.docs[k']
    requires k in s.docs && !Plain.Matches(Plain.Involving, u, s.docs[k])
    requires k in s'.docs ==> !Plain.Matches(Plain.Involving, u, s'.docs[k])
    requires forall k' :: k' in s.docs && k' != k ==> k' in s'.docs
    ensures Plain.FindByUser(s', u) == Plain.FindByUser(s, u)
  {
    forall i | 0 <= i < |s.order|
      ensures Plain.SameFor(s.docs, s'.docs, u, Plain.Involving, s.order[i])
    {
    }
    Plain.SelectAgrees(s.order, s.docs, s'.docs, u, Plain.Involving);
  }

  lemma UpdateKeepsInvariant(c: Cache, s: Plain.Store, id: string, st: Status)
    requires Plain.UpdateStatus(s, id, st).0.Some?
    ensures
      var (res, s') := Plain.UpdateStatus(s, id, st);
      Invariant(c, s) ==> Invariant(DropParticipants(Drop(c, TxEntry(Parse(id).value)), res.value.tx), s')
  {
    var (res, s') := Plain.UpdateStatus(s, id, st);
    var k := Parse(id).value;
    var c' := DropParticipants(Drop(c, TxEntry(k)), res.value.tx);
    if Invariant(c, s) {
      forall id' | id' in c'.txs
        ensures Plain.Find(s', id') == Some(c'.txs[id'])
      {
        assert Plain.Find(s, id') == Some(c.txs[id']);
        ParsePrinted(id');
      }
      forall u | u in c'.lists
        ensures c'.lists[u] == Plain.FindByUser(s', u)
      {
        RecordChangeOutsideList(s, s', k, u);
      }
    }
  }

  /** Removal through the decorator: remove, then drop the entry and both lists. */
  function Delete(c: Cache, s: Plain.Store, id: string): (r: (Option<TxView>, Plain.Store, Cache))
    ensures (r.0, r.1) == Plain.Delete(s, id)
    ensures r.0.None? ==> r.2 == c
    ensures r.0.Some? ==> Parse(id).value !in r.2.txs && r.0.value.tx.sender !in r.2.lists && r.0.value.tx.receiver !in r.2.lists
    ensures Invariant(c, s) ==> Invariant(r.2, r.1)
  {
    var (res, s') := Plain.Delete(s, id);
    if res.Some? then
      var c' := DropParticipants(Drop(c, TxEntry(Parse(id).value)), res.value.tx);
      DeleteKeepsInvariant(c, s, id);
      (res, s', c')
    else
      (res, s', c)
  }

  lemma DeleteKeepsInvariant(c: Cache, s: Plain.Store, id: string)
    requires Plain.Delete(s, id).0.Some?
    ensures
      var (res, s') := Plain.Delete(s, id);
      Invariant(c, s) ==> Invariant(DropParticipants(Drop(c, TxEntry(Parse(id).value)), res.value.tx), s')
  {
    var (res, s') := Plain.Delete(s, id);
    var k := Parse(id).value;
    var c' := DropParticipants(Drop(c, TxEntry(k)), res.value.tx);
    if Invariant(c, s) {
      forall id' | id' in c'.txs
        ensures Plain.Find(s', id') == Some(c'.txs[id'])
      {
        assert Plain.Find(s, id') == Some(c.txs[id']);
        ParsePrinted(id');
      }
      forall u | u in c'.lists
        ensures c'.lists[u] == Plain.FindByUser(s', u)
      {
        RecordChangeOutsideList(s, s', k, u);
      }
    }
  }
}

=== FILE: ledger_link.dfy ===
/**
 * The transfers service's view of the accounts service: one
 * `PATCH /v1/accounts/operation/<iban>` request with body `{"balance": delta}`.
 * Whether the request reaches the accounts service is not up to the caller,
 * so each request is given a `Delivery`: it is delivered and answered by the
 * accounts blueprint; or something in between answers with an error status
 * of its own; or the connection fails and `httpx` raises, after the ledger
 * either did or did not apply the change.
 */
module LedgerLink {
  import opened Wrappers
  import opened Accounts
  import opened AccountsRepository
  import opened LedgerTotal
  import Api = AccountsApi
  import Service = AccountsService

  /** An HTTP error status. */
  type ErrorCode = c: int | c >= 400 witness 500

  datatype Delivery = Delivered | Refused(code: ErrorCode) | Dropped(applied: bool)

  /** The status the caller sees and the ledger afterwards, or a transport exception. */
  datatype Answer = Answer(code: int, ledger: Ledger) | Lost(ledger: Ledger)

  /** The ledger after the accounts service applies `delta` to `iban`. */
  function Applied(l: Ledger, iban: string, delta: int): (r: Ledger)
    ensures Service.Accepts(l, iban, delta) ==> r == l[iban := l[iban].(balance := l[iban].balance + delta)]
    ensures !Service.Accepts(l, iban, delta) ==> r == l
  {
    Api.Operation(l, iban, Api.Parsed(BalanceUpdate(delta))).1
  }

  /** One balance request from the transfers service. */
  function Patch(l: Ledger, iban: string, delta: int, d: Delivery): (r: Answer)
    ensures d.Delivered? ==> r.Answer? && (r.code < 400 <==> Service.Accepts(l, iban, delta))
    ensures d.Delivered? ==> (r.code == 404 <==> iban !in l) && (r.code == 403 <==> iban in l && l[iban].balance + delta <= 0)
    ensures d.Refused? ==> r == Answer(d.code, l)
    ensures d.Dropped? ==> r.Lost?
    ensures r.Answer? && r.code < 400 ==> r.ledger == Applied(l, iban, delta) && iban in l
    ensures r.Answer? && r.code >= 400 ==> r.ledger == l
    ensures r.ledger == l || r.ledger == Applied(l, iban, delta)
  {
    match d
    case Delivered =>
      var (http, l') := Api.Operation(l, iban, Api.Parsed(BalanceUpdate(delta)));
      Answer(http.code, l')
    case Refused(code) => Answer(code, l)
    case Dropped(applied) => Lost(if applied then Applied(l, iban, delta) else l)
  }

  /** Whether a request changed the ledger. */
  predicate Moved(l: Ledger, iban: string, delta: int, d: Delivery) {
    Service.Accepts(l, iban, delta) && (d.Delivered? || d == Dropped(true))
  }

  /** A request moves the total by its delta exactly when it changed the ledger. */
  lemma PatchTotal(l: Ledger, iban: string, delta: int, d: Delivery)
    ensures Total(Patch(l, iban, delta, d).ledger) == Total(l) + (if Moved(l, iban, delta, d) then delta else 0)
    ensures Patch(l, iban, delta, d).ledger == (if Moved(l, iban, delta, d) then Applied(l, iban, delta) else l)
  {
    Service.UpdateBalanceTotal(l, iban, BalanceUpdate(delta));
  }

  /** The delivery of the `i`-th request of an operation; requests beyond the list are delivered. */
  function Nth(net: seq<Delivery>, i: nat): (d: Delivery)
    ensures i < |net| ==> d == net[i]
    ensures i >= |net| ==> d.Delivered?
  {
    if i < |net| then net[i] else Delivered
  }

  /** A change followed by its opposite, when both are accepted, restores the ledger. */
  lemma AppliedInverse(l: Ledger, iban: string, delta: int)
    requires Service.Accepts(l, iban, delta) && Service.Accepts(Applied(l, iban, delta), iban, -delta)
    ensures Applied(Applied(l, iban, delta), iban, -delta) == l
  {
    assert l[iban].(balance := l[iban].balance) == l[iban];
  }

  /**
   * The transfers service puts the party string into the request URL
   * unescaped. The path the accounts service routes on is the part before
   * the first `?` or `#`.
   */
  function PathPart(party: string): (p: string)
    ensures p <= party
    ensures forall i :: 0 <= i < |p| ==> p[i] != '?' && p[i] != '#'
    ensures |p| < |party| ==> party[|p|] == '?' || party[|p|] == '#'
  {
    if |party| == 0 || party[0] == '?' || party[0] == '#' then []
    else [party[0]] + PathPart(party[1..])
  }

  /** A party with no `?` or `#` is all path. */
  lemma PathPartWhole(party: string)
    requires forall i :: 0 <= i < |party| ==> party[i] != '?' && party[i] != '#'
    ensures PathPart(party) == party
  {
    var p := PathPart(party);
    assert |p| == |party|;
    assert p == party[..|p|] && party[..|party|] == party;
  }

  /** The path ends at the first `?` or `#`. */
  lemma PathPartPrefix(party: string, n: nat)
    requires n < |party| && (party[n] == '?' || party[n] == '#')
    requires forall i :: 0 <= i < n ==> party[i] != '?' && party[i] != '#'
    ensures PathPart(party) == party[..n]
  {
    var p := PathPart(party);
    assert |p| == n;
  }

  /** An ASCII control character. */
  predicate IsControl(c: char) {
    c < ' ' || c == '\U{7F}'
  }

  /**
   * A string that stays one path segment, unchanged, in an unescaped URL and
   * that the HTTP client does not refuse for its characters.
   */
  predicate PlainSegment(s: string) {
    && |s| > 0 && s != "." && s != ".."
    && forall i :: 0 <= i < |s| ==> s[i] !in "/?#%" && !IsControl(s[i])
  }

  /** The longest URL the HTTP client sends. */
  const MaxUrlLength: nat := 65536

  /**
   * The URL of a balance request: the configured accounts base URL with its
   * trailing `/` stripped, the route, and the party, unescaped.
   */
  function OperationUrl(base: string, party: string): string {
    base + "/v1/accounts/operation/" + party
  }

  /**
   * Whether the HTTP client sends a URL at all: it raises `InvalidURL`,
   * before any request, for a URL longer than its limit or holding an ASCII
   * control character anywhere.
   */
  predicate Sendable(url: string) {
    |url| <= MaxUrlLength && forall i :: 0 <= i < |url| ==> !IsControl(url[i])
  }

  /** What an unescaped `<base>/v1/accounts/operation/<party>` URL reaches. */
  datatype Route = OperationOn(iban: string) | GeneralUpdateOf(iban: string) | Unresolved | InvalidUrl

  /**
   * The route for a party string as the code builds the URL. A URL the
   * client refuses is never sent. Otherwise the path is the party up to its
   * first `?` or `#`: a plain segment names an account of the balance
   * operation, and `../` followed by a plain segment is normalised away by
   * the client and names an account of the general update. Other paths
   * (other slashes, dot segments or percent escapes) are not resolved here.
   */
  function RouteAsWritten(base: string, party: string): (r: Route)
    ensures r.InvalidUrl? <==> !Sendable(OperationUrl(base, party))
    ensures r.OperationOn? <==> Sendable(OperationUrl(base, party)) && PlainSegment(PathPart(party))
    ensures r.OperationOn? ==> r.iban == PathPart(party)
    ensures r.GeneralUpdateOf? ==> PlainSegment(r.iban) && PathPart(party) == "../" + r.iban
    ensures forall a :: PlainSegment(a) && PathPart(party) == "../" + a && Sendable(OperationUrl(base, party)) ==> r == GeneralUpdateOf(a)
    ensures Sendable(OperationUrl(base, party)) && PlainSegment(party) ==> r == OperationOn(party)
  {
    var path := PathPart(party);
    assert PlainSegment(party) ==> path == party by {
      if PlainSegment(party) {
        assert |path| == |party|;
        assert path == party[..|path|] && party[..|party|] == party;
      }
    }
    assert forall a :: path == "../" + a ==> path[2] == '/' && path[3..] == a;
    if !Sendable(OperationUrl(base, party)) then InvalidUrl
    else if PlainSegment(path) then OperationOn(path)
    else if |path| > 3 && path[..3] == "../" && PlainSegment(path[3..]) then
      assert path == "../" + path[3..];
      GeneralUpdateOf(path[3..])
    else Unresolved
  }

  /**
   * One balance request as written, for the URLs `RouteAsWritten` resolves.
   * A refused URL raises before anything is sent. The body `{"balance": delta}`
   * sent to the general update is parsed as an update with no fields, since
   * that model ignores unknown keys.
   */
  function PatchAsWritten(base: string, l: Ledger, party: string, delta: int, d: Delivery): (r: Option<Answer>)
    ensures Sendable(OperationUrl(base, party)) && PlainSegment(party) ==> r == Some(Patch(l, party, delta, d))
    ensures !Sendable(OperationUrl(base, party)) ==> r == Some(Lost(l))
    ensures r.None? <==> RouteAsWritten(base, party).Unresolved?
    ensures RouteAsWritten(base, party).GeneralUpdateOf? ==> r.value.ledger == l
    ensures RouteAsWritten(base, party).GeneralUpdateOf? && d.Delivered? ==>
      r.value.Answer? && (r.value.code == 200 <==> RouteAsWritten(base, party).iban in l)
  {
    match RouteAsWritten(base, party)
    case OperationOn(iban) => Some(Patch(l, iban, delta, d))
    case GeneralUpdateOf(iban) =>
      Some(match d
        case Delivered =>
          var (http, l') := Api.UpdateAccount(l, iban, Api.Parsed(AccountUpdate(None, None, None)));
          Answer(http.code, l')
        case Refused(code) => Answer(code, l)
        case Dropped(_) => Lost(l))
    case Unresolved => None
    case InvalidUrl => Some(Lost(l))
  }
}

=== FILE: ledger_total.dfy ===
/** The sum of all balances held in the accounts collection. */
module LedgerTotal {
  import opened Accounts
  import opened AccountsRepository

  ghost function Total(l: Ledger): int
    decreases l.Keys
  {
    if l == map[] then 0
    else
      var i :| i in l;
      l[i].balance + Total(l - {i})
  }

  /** No account holds a negative balance. */
  ghost predicate NonNegative(l: Ledger) {
    forall i :: i in l ==> l[i].balance >= 0
  }

  /** The total splits into any one account's balance and the rest. */
  lemma {:induction false} TotalRemove(l: Ledger, i: string)
    requires i in l
    ensures Total(l) == l[i].balance + Total(l - {i})
    decreases l.Keys
  {
    assert l != map[];
    var j :| j in l && Total(l) == l[j].balance + Total(l - {j});
    if j != i {
      assert i in l - {j} && j in l - {i};
      TotalRemove(l - {j}, i);
      TotalRemove(l - {i}, j);
      assert l - {j} - {i} == l - {i} - {j};
    }
  }

  /** Replacing one account changes the total by exactly the change in its balance. */
  lemma TotalReplace(l: Ledger, i: string, a: Account)
    requires i in l
    ensures Total(l[i := a]) == Total(l) - l[i].balance + a.balance
  {
    TotalRemove(l, i);
    TotalRemove(l[i := a], i);
    assert l[i := a] - {i} == l - {i};
  }
}

=== FILE: object_id.dfy ===
/**
 * The store's native identity. `ObjectId(id_str)` accepts a string of 24
 * hexadecimal digits (either case); the whitespace-padded 24-character
 * spellings it also accepts are treated as malformed here (see README);
 * `str(ObjectId(...))` always prints lower-case hex. An `Oid` is that canonical
 * printed form.
 */
module ObjectId {
  import opened Wrappers

  const OidLength: nat := 24

  predicate IsHexDigit(ch: char) {
    ('0' <= ch <= '9') || ('a' <= ch <= 'f') || ('A' <= ch <= 'F')
  }

  predicate IsLowerHexDigit(ch: char) {
    ('0' <= ch <= '9') || ('a' <= ch <= 'f')
  }

  predicate IsCanonical(s: string) {
    |s| == OidLength && forall i :: 0 <= i < |s| ==> IsLowerHexDigit(s[i])
  }

  /** The printed form of an ObjectId. */
  type Oid = s: string | IsCanonical(s) witness "000000000000000000000000"

  /** Whether `ObjectId(s)` succeeds. */
  predicate Parses(s: string) {
    |s| == OidLength && forall i :: 0 <= i < |s| ==> IsHexDigit(s[i])
  }

  function LowerHex(ch: char): (r: char)
    requires IsHexDigit(ch)
    ensures IsLowerHexDigit(r)
    ensures IsLowerHexDigit(ch) ==> r == ch
  {
    if 'A' <= ch <= 'F' then (ch as int + 32) as char else ch
  }

  /** `ObjectId(s)`, printed back with `str`; `None` is the `InvalidId` exception. */
  function Parse(s: string): (r: Option<Oid>)
    ensures r.Some? <==> Parses(s)
    ensures r.Some? ==> forall i :: 0 <= i < |s| ==> r.value[i] == LowerHex(s[i])
  {
    if Parses(s) then
      var canon := seq(|s|, i requires 0 <= i < |s| => LowerHex(s[i]));
      Some(canon)
    else
      None
  }

  /** Printing an ObjectId and parsing it again yields the same ObjectId. */
  lemma ParsePrinted(o: Oid)
    ensures Parse(o) == Some(o)
  {
    var r := Parse(o);
    assert Parses(o);
    assert r.value == o;
  }

  /** Two strings name the same ObjectId iff they agree up to the case of hex letters. */
  lemma ParseSameIdIffSameDigits(s: string, t: string)
    requires Parses(s) && Parses(t)
    ensures Parse(s) == Parse(t) <==> forall i :: 0 <= i < |s| ==> LowerHex(s[i]) == LowerHex(t[i])
  {
    if forall i :: 0 <= i < |s| ==> LowerHex(s[i]) == LowerHex(t[i]) {
      assert Parse(s).value == Parse(t).value;
    }
  }
}

=== FILE: rate_limiter.dfy ===
/**
 * `RateLimiter.check_limit`: a fixed-window counter per client. Each request
 * increments the counter of its (client, window) pair; the first increment
 * sets the counter's expiry; a request whose count goes above the limit is
 * refused with 429. Without a counter store, or when the store fails, every
 * request is let through.
 *
 * The clock reading is a parameter, in whole seconds; the counter store is a
 * pair of maps, or absent.
 */
module RateLimiter {
  import opened Wrappers

  const DefaultLimit: int := 50
  const DefaultWindow: int := 60
  const UnknownClient: string := "unknown"

  datatype Config = Config(limit: int, window: int)

  const Defaults: Config := Config(DefaultLimit, DefaultWindow)

  /** The counter key `rate_limit:<client>:<window index>`. */
  datatype Key = Key(client: string, index: int)

  /** Counts and expiry times (absolute, in seconds) of the keys that exist. */
  datatype Counters = Counters(count: map<Key, int>, expiry: map<Key, int>)

  /** Whether the store's `incr`, or its `expire`, raises. */
  datatype StoreFault = Healthy | IncrFails | ExpireFails

  datatype Verdict = Admitted | TooMany

  /** A request with no remote address, or an empty one, counts as the client "unknown". */
  function ClientIdentity(remote: Option<string>): (r: string)
    ensures remote.Some? && remote.value != "" ==> r == remote.value
    ensures remote.None? || remote.value == "" ==> r == UnknownClient
  {
    if remote.Some? && remote.value != "" then remote.value else UnknownClient
  }

  /** `int(now // window)`: the window the instant falls in. */
  function WindowIndex(now: int, window: int): (r: int)
    requires window > 0
    ensures window * r <= now < window * (r + 1)
  {
    now / window
  }

  /** Two instants share a window exactly when their indices agree. */
  lemma WindowIndexUnique(now: int, window: int, i: int)
    requires window > 0
    ensures window * i <= now < window * (i + 1) <==> WindowIndex(now, window) == i
  {
    var j := WindowIndex(now, window);
    if i < j {
      assert window * (i + 1) <= window * j;
    } else if j < i {
      assert window * (j + 1) <= window * i;
    }
  }

  function CountOf(c: Counters, k: Key): int {
    if k in c.count then c.count[k] else 0
  }

  /**
   * `check_limit`. The new store is returned along with the verdict; the
   * expiry of a counter is set only when the counter becomes 1.
   */
  function CheckLimit(cfg: Config, store: Option<Counters>, remote: Option<string>, now: int, fault: StoreFault): (r: (Verdict, Option<Counters>))
    requires cfg.window > 0
    ensures store.None? ==> r == (Admitted, None)
    ensures r.1.Some? <==> store.Some?
    ensures store.Some? && fault == IncrFails ==> r == (Admitted, store)
    ensures store.Some? && fault != IncrFails ==>
      var k := Key(ClientIdentity(remote), WindowIndex(now, cfg.window));
      var n := CountOf(store.value, k) + 1;
      && r.1.value.count == store.value.count[k := n]
      && (n == 1 && fault != ExpireFails ==> r.1.value.expiry == store.value.expiry[k := now + cfg.window])
      && (n != 1 || fault == ExpireFails ==> r.1.value.expiry == store.value.expiry)
      && (r.0 == TooMany <==> n > cfg.limit && !(n == 1 && fault == ExpireFails))
  {
    match store
    case None => (Admitted, None)
    case Some(c) =>
      if fault == IncrFails then (Admitted, store)
      else
        var k := Key(ClientIdentity(remote), WindowIndex(now, cfg.window));
        var n := CountOf(c, k) + 1;
        var c1 := c.(count := c.count[k := n]);
        if n == 1 && fault == ExpireFails then (Admitted, Some(c1))
        else
          var c2 := if n == 1 then c1.(expiry := c1.expiry[k := now + cfg.window]) else c1;
          (if n > cfg.limit then TooMany else Admitted, Some(c2))
  }

  /** A counter's expiry, set at its first request, never falls inside its own window. */
  lemma ExpiryOutlivesWindow(cfg: Config, c: Counters, remote: Option<string>, now: int)
    requires cfg.window > 0
    ensures
      var k := Key(ClientIdentity(remote), WindowIndex(now, cfg.window));
      var c' := CheckLimit(cfg, Some(c), remote, now, Healthy).1.value;
      k !in c.count ==> c'.expiry[k] >= cfg.window * (k.index + 1)
  {
  }

  /** A request changes no counter but its own: other clients and other windows count independently. */
  lemma OtherKeysUntouched(cfg: Config, c: Counters, remote: Option<string>, now: int, fault: StoreFault, other: Key)
    requires cfg.window > 0
    requires other != Key(ClientIdentity(remote), WindowIndex(now, cfg.window))
    ensures CountOf(CheckLimit(cfg, Some(c), remote, now, fault).1.value, other) == CountOf(c, other)
  {
  }

  /** `n` requests from one client at one instant, all with a healthy store. */
  function Burst(cfg: Config, c: Counters, remote: Option<string>, now: int, n: nat): (r: (seq<Verdict>, Counters))
    requires cfg.window > 0
    ensures |r.0| == n
    decreases n
  {
    if n == 0 then ([], c)
    else
      var (vs, c1) := Burst(cfg, c, remote, now, n - 1);
      var (v, c2) := CheckLimit(cfg, Some(c1), remote, now, Healthy);
      (vs + [v], c2.value)
  }

  /**
   * Within one window, the `i`-th request of a burst (from 0) is admitted
   * exactly when the count before the burst plus `i + 1` is at most the limit.
   */
  lemma {:induction false} BurstAdmits(cfg: Config, c: Counters, remote: Option<string>, now: int, n: nat)
    requires cfg.window > 0
    ensures
      var k := Key(ClientIdentity(remote), WindowIndex(now, cfg.window));
      var (vs, c') := Burst(cfg, c, remote, now, n);
      && CountOf(c', k) == CountOf(c, k) + n
      && forall i :: 0 <= i < n ==> (vs[i] == Admitted <==> CountOf(c, k) + i + 1 <= cfg.limit)
    decreases n
  {
    if n > 0 {
      BurstAdmits(cfg, c, remote, now, n - 1);
      var k := Key(ClientIdentity(remote), WindowIndex(now, cfg.window));
      var (vs, c1) := Burst(cfg, c, remote, now, n - 1);
      var (v, c2) := CheckLimit(cfg, Some(c1), remote, now, Healthy);
      assert Burst(cfg, c, remote, now, n).0 == vs + [v];
      assert v == Admitted <==> CountOf(c, k) + n <= cfg.limit;
    }
  }

  /** With the defaults and a fresh window, fifty requests pass and the fifty-first gets 429. */
  lemma FiftyThenRefused(c: Counters, remote: Option<string>, now: int)
    requires Key(ClientIdentity(remote), WindowIndex(now, DefaultWindow)) !in c.count
    ensures
      var vs := Burst(Defaults, c, remote, now, 51).0;
      && (forall i :: 0 <= i < 50 ==> vs[i] == Admitted)
      && vs[50] == TooMany
  {
    BurstAdmits(Defaults, c, remote, now, 51);
  }

  /** A request at a later window starts from a fresh count, however many came before. */
  lemma NewWindowStartsOver(cfg: Config, c: Counters, remote: Option<string>, now: int, later: int, n: nat)
    requires cfg.window > 0 && later >= now + cfg.window
    requires Key(ClientIdentity(remote), WindowIndex(later, cfg.window)) !in c.count
    ensures
      var c1 := Burst(cfg, c, remote, now, n).1;
      var k := Key(ClientIdentity(remote), WindowIndex(later, cfg.window));
      && CountOf(c1, k) == 0
      && (CheckLimit(cfg, Some(c1), remote, later, Healthy).0 == Admitted <==> 1 <= cfg.limit)
  {
    var id := ClientIdentity(remote);
    var k := Key(id, WindowIndex(later, cfg.window));
    assert WindowIndex(later, cfg.window) != WindowIndex(now, cfg.window) by {
      WindowIndexUnique(later, cfg.window, WindowIndex(now, cfg.window));
    }
    BurstElsewhere(cfg, c, remote, now, n, k);
  }

  /** A burst changes no counter but its own. */
  lemma {:induction false} BurstElsewhere(cfg: Config, c: Counters, remote: Option<string>, now: int, n: nat, other: Key)
    requires cfg.window > 0
    requires other != Key(ClientIdentity(remote), WindowIndex(now, cfg.window))
    ensures CountOf(Burst(cfg, c, remote, now, n).1, other) == CountOf(c, other)
    decreases n
  {
    if n > 0 {
      BurstElsewhere(cfg, c, remote, now, n - 1, other);
      OtherKeysUntouched(cfg, Burst(cfg, c, remote, now, n - 1).1, remote, now, Healthy, other);
    }
  }

  /** Without a counter store, or when incrementing fails, a request is let through and nothing is counted. */
  lemma FailOpen(cfg: Config, store: Option<Counters>, remote: Option<string>, now: int)
    requires cfg.window > 0
    ensures CheckLimit(cfg, None, remote, now, Healthy) == (Admitted, None)
    ensures CheckLimit(cfg, store, remote, now, IncrFails) == (Admitted, store)
  {
  }
}

=== FILE: repositories.dfy ===
/**
 * The repository a `TransferService` is built with: the plain
 * `TransfersRepository`, or the cache-aside decorator in front of one.
 * Over either, when its invariant holds, every operation answers exactly what
 * the plain repository answers and leaves the same store behind.
 */
module Repositories {
  import opened Wrappers
  import opened ObjectId
  import opened Transactions
  import Plain = TransfersRepository
  import C = CachedTransfersRepository

  datatype Repo = Direct(store: Plain.Store) | Cached(store: Plain.Store, cache: C.Cache)

  /** The store is well formed and, for the decorator, every cached entry is current. */
  ghost predicate Ok(r: Repo) {
    Plain.Valid(r.store) && (r.Cached? ==> C.Invariant(r.cache, r.store))
  }

  /** `find_transaction_by_id`. */
  function Find(r: Repo, id: string): (res: (Option<TxView>, Repo))
    ensures res.1.store == r.store && res.1.Cached? == r.Cached?
    ensures Ok(r) ==> res.0 == Plain.Find(r.store, id) && Ok(res.1)
  {
    match r
    case Direct(s) => (Plain.Find(s, id), r)
    case Cached(s, c) =>
      var (v, c') := C.Find(c, s, id);
      (v, Cached(s, c'))
  }

  /** `find_transactions_by_user`. */
  function FindByUser(r: Repo, u: string): (res: (seq<TxView>, Repo))
    ensures res.1.store == r.store && res.1.Cached? == r.Cached?
    ensures Ok(r) ==> res.0 == Plain.FindByUser(r.store, u) && Ok(res.1)
  {
    match r
    case Direct(s) => (Plain.FindByUser(s, u), r)
    case Cached(s, c) =>
      var (vs, c') := C.FindByUser(c, s, u);
      (vs, Cached(s, c'))
  }

  /** `find_transactions_sent_by_user`: not overridden by the decorator, so never cached. */
  function FindSent(r: Repo, u: string): (res: seq<TxView>)
    ensures forall v :: v in res ==> v.tx.sender == u && v.id.Some?
    ensures forall v :: v in res <==>
      exists k :: k in r.store.order && k in r.store.docs && r.store.docs[k].sender == u && v == Plain.View(k, r.store.docs[k])
  {
    Plain.FindSent(r.store, u)
  }

  /** `find_transactions_received_by_user`: never cached either. */
  function FindReceived(r: Repo, u: string): (res: seq<TxView>)
    ensures forall v :: v in res ==> v.tx.receiver == u && v.id.Some?
    ensures forall v :: v in res <==>
      exists k :: k in r.store.order && k in r.store.docs && r.store.docs[k].receiver == u && v == Plain.View(k, r.store.docs[k])
  {
    Plain.FindReceived(r.store, u)
  }

  /** `insert_transaction`. */
  function Insert(r: Repo, doc: TxBase, newId: Oid): (res: (TxView, Repo))
    requires Plain.Fresh(r.store, newId)
    ensures (res.0, res.1.store) == Plain.Insert(r.store, doc, newId) && res.1.Cached? == r.Cached?
    ensures Ok(r) ==> Ok(res.1)
  {
    match r
    case Direct(s) =>
      var (v, s') := Plain.Insert(s, doc, newId);
      (v, Direct(s'))
    case Cached(s, c) =>
      var (v, s', c') := C.Insert(c, s, doc, newId);
      (v, Cached(s', c'))
  }

  /** `update_transaction_status`. */
  function UpdateStatus(r: Repo, id: string, st: Status): (res: (Option<TxView>, Repo))
    ensures (res.0, res.1.store) == Plain.UpdateStatus(r.store, id, st) && res.1.Cached? == r.Cached?
    ensures Ok(r) ==> Ok(res.1)
  {
    match r
    case Direct(s) =>
      var (v, s') := Plain.UpdateStatus(s, id, st);
      (v, Direct(s'))
    case Cached(s, c) =>
      var (v, s', c') := C.UpdateStatus(c, s, id, st);
      (v, Cached(s', c'))
  }

  /** `delete_transaction`. */
  function Delete(r: Repo, id: string): (res: (Option<TxView>, Repo))
    ensures (res.0, res.1.store) == Plain.Delete(r.store, id) && res.1.Cached? == r.Cached?
    ensures Ok(r) ==> Ok(res.1)
  {
    match r
    case Direct(s) =>
      var (v, s') := Plain.Delete(s, id);
      (v, Direct(s'))
    case Cached(s, c) =>
      var (v, s', c') := C.Delete(c, s, id);
      (v, Cached(s', c'))
  }
}

=== FILE: transactions.dfy ===
/**
 * Record shapes of the transfers service: the stored transaction
 * (`TransactionBase`), the create request (`TransactionCreate`) and the view
 * returned to callers (`TransactionView`).
 */
module Transactions {
  import opened Wrappers

  /** The status values the transfer core ever writes. */
  datatype Status = Pending | Completed | Failed | Reverted {
    function Text(): string {
      match this
      case Pending => "pending"
      case Completed => "completed"
      case Failed => "failed"
      case Reverted => "reverted"
    }
  }

  const DefaultStatus: Status := Pending
  const DefaultCurrency: string := "USD"

  /**
   * A stored transaction. The balance snapshots are floats in the source and
   * `gmtTime` a free-form time string; the core never fills them in.
   */
  datatype TxBase = TxBase(
    sender: string,
    receiver: string,
    quantity: int,
    status: Status,
    currency: string,
    senderBalance: Option<real>,
    receiverBalance: Option<real>,
    gmtTime: Option<string>)

  /** The body of a create request: nothing else can be chosen by the caller. */
  datatype TxCreate = TxCreate(sender: string, receiver: string, quantity: int)

  /** A transaction as returned by the store: the record plus its printed id. */
  datatype TxView = TxView(id: Option<string>, tx: TxBase)

  /** `TransactionBase(sender=..., receiver=..., quantity=...)`: every other field takes its default. */
  function FromRequest(req: TxCreate): (t: TxBase)
    ensures t.status == Pending && t.currency == "USD"
    ensures t.senderBalance.None? && t.receiverBalance.None? && t.gmtTime.None?
    ensures RequestOf(t) == req
  {
    TxBase(req.sender, req.receiver, req.quantity, DefaultStatus, DefaultCurrency, None, None, None)
  }

  /** The request fields carried by a record. */
  function RequestOf(t: TxBase): TxCreate {
    TxCreate(t.sender, t.receiver, t.quantity)
  }

  /** A record built from a request is determined by the request alone. */
  lemma FromRequestInjective(a: TxCreate, b: TxCreate)
    ensures FromRequest(a) == FromRequest(b) <==> a == b
  {
    if FromRequest(a) == FromRequest(b) {
      assert RequestOf(FromRequest(a)) == RequestOf(FromRequest(b));
    }
  }
}

=== FILE: transactions_api.dfy ===
/**
 * The `/v1/transactions` blueprint: each route maps the service's answer to an
 * HTTP status and body.
 */
module TransactionsApi {
  import opened Wrappers
  import opened ObjectId
  import opened Transactions
  import opened LedgerLink
  import opened TransferService
  import Plain = TransfersRepository
  import R = Repositories
  import Props = TransferProperties

  /** A response body: one record, a list, a whole result dictionary, an abort message, or nothing. */
  datatype Body = Record(tx: TxView) | Listing(txs: seq<TxView>) | Result(reply: Reply) | Message(text: string) | StatusResult(result: StatusReply) | NoBody

  datatype Http = Http(code: int, body: Body)

  /** An exception that escapes a view, or a view that returns `None` as its body, ends in a 500. */
  const InternalError: Http := Http(500, NoBody)

  /** `create_transaction` (the route): a `ValueError` is a 400; `completed` is 202 with the record; any other result is 400 with the whole result. */
  function CreateResponse(res: Response<Reply>): (h: Http)
    ensures h.code == 400 && h.body.Message? <==> res.Raised? && res.fault.ValueError?
    ensures res.Raised? && res.fault.ValueError? ==> h.body == Message(res.fault.message)
    ensures h.code == 202 <==> res.Returned? && res.value.Done? && res.value.updated.Some?
    ensures h.code == 202 ==> h.body == Record(res.value.updated.value)
    ensures h.code == 400 && h.body.Result? <==> res.Returned? && !res.value.Done?
    ensures h.body.Result? ==> res.Returned? && h.body.reply == res.value
    ensures h.code in {202, 400, 500}
  {
    match res
    case Raised(ValueError(m)) => Http(400, Message(m))
    case Raised(TransportError) => InternalError
    case Returned(Done(updated)) => if updated.Some? then Http(202, Record(updated.value)) else InternalError
    case Returned(other) => Http(400, Result(other))
  }

  /** `POST /v1/transactions/`. */
  function CreateRoute(w: World, req: TxCreate, newId: Oid, net: seq<Delivery>): (r: (Http, World))
    requires Plain.Fresh(w.repo.store, newId)
    ensures r.0 == CreateResponse(Create(w, req, newId, net).0) && r.1 == Create(w, req, newId, net).1
    ensures !ValidRequest(req) ==> r.0.code == 400 && r.1 == w
  {
    var (res, w') := Create(w, req, newId, net);
    (CreateResponse(res), w')
  }

  /**
   * Over a repository whose invariant holds, a create answers 202, 400, or a
   * 500 exactly when a request to the accounts service raised.
   */
  lemma CreateRouteCodes(w: World, req: TxCreate, newId: Oid, net: seq<Delivery>)
    requires R.Ok(w.repo) && Plain.Fresh(w.repo.store, newId)
    ensures
      var res := Create(w, req, newId, net).0;
      var h := CreateRoute(w, req, newId, net).0;
      && (h.code == 500 <==> res == Raised(TransportError))
      && (h.code == 202 <==> res.Returned? && res.value.Done?)
  {
    if ValidRequest(req) {
      Props.CreateRecordsOnce(w, req, newId, net);
    }
  }

  /** `GET /v1/transactions/<id>`: 404 when there is no record, else 200 with it. */
  function GetRoute(w: World, id: string): (r: (Http, World))
    ensures R.Ok(w.repo) ==> (r.0.code == 200 <==> Plain.Find(w.repo.store, id).Some?)
    ensures R.Ok(w.repo) && r.0.code == 200 ==> r.0.body == Record(Plain.Find(w.repo.store, id).value)
    ensures r.0.code != 200 ==> r.0.code == 404
    ensures r.1.ledger == w.ledger && r.1.repo.store == w.repo.store
  {
    var (res, w') := Get(w, id);
    if res.None? then (Http(404, Message("Transaction not found")), w') else (Http(200, Record(res.value)), w')
  }

  /** The three list routes: an empty list is a 404, any other a 200 with the list. */
  function ListResponse(txs: seq<TxView>, notFound: string): (h: Http)
    ensures h.code == 200 <==> |txs| > 0
    ensures h.code == 200 ==> h.body == Listing(txs)
    ensures h.code != 200 ==> h == Http(404, Message(notFound))
  {
    if |txs| == 0 then Http(404, Message(notFound)) else Http(200, Listing(txs))
  }

  /** `GET /v1/transactions/user/<id>`. */
  function ByUserRoute(w: World, u: string): (r: (Http, World))
    ensures R.Ok(w.repo) ==> r.0 == ListResponse(Plain.FindByUser(w.repo.store, u), "No transactions found for user")
    ensures r.1.ledger == w.ledger && r.1.repo.store == w.repo.store
  {
    var (res, w') := GetByUser(w, u);
    (ListResponse(res, "No transactions found for user"), w')
  }

  /** `GET /v1/transactions/user/<id>/sent`. */
  function SentRoute(w: World, u: string): (h: Http)
    ensures h == ListResponse(Plain.FindSent(w.repo.store, u), "No sent transactions found for user")
    ensures h.code == 200 ==> forall v :: v in h.body.txs ==> v.tx.sender == u
  {
    ListResponse(R.FindSent(w.repo, u), "No sent transactions found for user")
  }

  /** `GET /v1/transactions/user/<id>/received`. */
  function ReceivedRoute(w: World, u: string): (h: Http)
    ensures h == ListResponse(Plain.FindReceived(w.repo.store, u), "No received transactions found for user")
    ensures h.code == 200 ==> forall v :: v in h.body.txs ==> v.tx.receiver == u
  {
    ListResponse(R.FindReceived(w.repo, u), "No received transactions found for user")
  }

  /** `PATCH /v1/transactions/<id>`: `None` is 404, `reverted` is 200 with the record, anything else is 400. */
  function RevertResponse(res: Response<Option<Reply>>): (h: Http)
    ensures h.code == 404 <==> res == Returned(None)
    ensures h.code == 200 <==> res.Returned? && res.value.Some? && res.value.value.Undone? && res.value.value.updated.Some?
    ensures h.code == 200 ==> h.body == Record(res.value.value.updated.value)
    ensures h.code == 400 <==> res.Returned? && res.value.Some? && !res.value.value.Undone?
    ensures h.code == 400 ==> h.body == Result(res.value.value)
    ensures h.code in {200, 400, 404, 500}
  {
    match res
    case Raised(_) => InternalError
    case Returned(None) => Http(404, Message("Transaction not found"))
    case Returned(Some(Undone(updated))) => if updated.Some? then Http(200, Record(updated.value)) else InternalError
    case Returned(Some(other)) => Http(400, Result(other))
  }

  /** `DELETE /v1/transactions/<id>`: `None` is 404, `deleted` is 200 with the record, anything else is 400. */
  function DeleteResponse(res: Response<Option<Reply>>): (h: Http)
    ensures h.code == 404 <==> res == Returned(None)
    ensures h.code == 200 <==> res.Returned? && res.value.Some? && res.value.value.Removed?
    ensures h.code == 200 ==> h.body == Record(res.value.value.tx)
    ensures h.code == 400 <==> res.Returned? && res.value.Some? && !res.value.value.Removed?
    ensures h.code == 400 ==> h.body == Result(res.value.value)
    ensures h.code == 500 <==> res.Raised?
  {
    match res
    case Raised(_) => InternalError
    case Returned(None) => Http(404, Message("Transaction not found"))
    case Returned(Some(Removed(tx))) => Http(200, Record(tx))
    case Returned(Some(other)) => Http(400, Result(other))
  }

  /** The revert route over a repository whose invariant holds: 500 only when a request raised. */
  lemma RevertRouteCodes(w: World, id: string, net: seq<Delivery>)
    requires R.Ok(w.repo)
    ensures
      var res := Revert(w, id, net).0;
      && (RevertResponse(res).code == 500 <==> res.Raised?)
      && (RevertResponse(res).code == 404 <==> Plain.Find(w.repo.store, id).None?)
  {
    Props.RevertOutcomes(w, id, net);
  }

  /** The delete route over a repository whose invariant holds: 404 exactly when there is no record. */
  lemma DeleteRouteCodes(w: World, id: string, net: seq<Delivery>)
    requires R.Ok(w.repo)
    ensures DeleteResponse(Delete(w, id, net).0).code == 404 <==> Plain.Find(w.repo.store, id).None?
    ensures Plain.Find(w.repo.store, id).Some? && Plain.Find(w.repo.store, id).value.tx.status != Completed ==>
      DeleteResponse(Delete(w, id, net).0) == Http(200, Record(Plain.Find(w.repo.store, id).value))
  {
    Props.DeleteOutcomes(w, id, net);
    var found := Plain.Find(w.repo.store, id);
    if found.Some? && found.value.tx.status != Completed {
      Props.DeleteUncompleted(w, id, net);
    }
  }

  /**
   * The reply `PUT /v1/transactions/<id>/status` expects from a service
   * method `update_status`, which `TransferService` does not define.
   */
  datatype StatusReply = StatusReply(status: string, tx: Option<TxView>)

  /**
   * The JSON body of a status PUT, as `get_json(silent=True) or {}` leaves it:
   * falsy (missing, not JSON, `null`, `{}`, `[]`, `""`, `0`, `false`) becomes
   * `{}`; a truthy value that is not an object has no `get`; an object carries
   * its `status` entry, `None` when absent or falsy.
   */
  datatype StatusBody = Falsy | NotObject | Object(status: Option<string>)

  /** The status a body names, when it names a usable one. */
  function StatusOf(body: StatusBody): Option<string> {
    if body.Object? && body.status.Some? && body.status.value != "" then body.status else None
  }

  /**
   * `put_status`: a truthy body that is not an object raises `AttributeError`
   * (500); otherwise the status must be present and non-empty before the
   * service is asked; then `None` is 404, `updated` is 200 with the record,
   * anything else is 400.
   */
  function PutStatusRoute(body: StatusBody, service: string -> Response<Option<StatusReply>>): (h: Http)
    ensures body.NotObject? ==> h == InternalError
    ensures !body.NotObject? && StatusOf(body).None? ==> h == Http(400, Message("Missing 'status' in request body"))
    ensures StatusOf(body).Some? ==>
      var res := service(StatusOf(body).value);
      && (h.code == 500 <==> res.Raised? || (res.Returned? && res.value.Some? && res.value.value.status == "updated" && res.value.value.tx.None?))
      && (h.code == 404 <==> res == Returned(None))
      && (h.code == 200 <==> res.Returned? && res.value.Some? && res.value.value.status == "updated" && res.value.value.tx.Some?)
      && (h.code == 400 <==> res.Returned? && res.value.Some? && res.value.value.status != "updated")
  {
    match body
    case NotObject => InternalError
    case Falsy => Http(400, Message("Missing 'status' in request body"))
    case Object(status) =>
      if status.None? || status.value == "" then Http(400, Message("Missing 'status' in request body"))
      else
        match service(status.value)
        case Raised(_) => InternalError
        case Returned(None) => Http(404, Message("Transaction not found"))
        case Returned(Some(reply)) =>
          if reply.status == "updated" then
            if reply.tx.Some? then Http(200, Record(reply.tx.value)) else InternalError
          else Http(400, StatusResult(reply))
  }

  /** A body that raises, or names no usable status, gets its answer whatever the service would have answered. */
  lemma PutStatusChecksFirst(service1: string -> Response<Option<StatusReply>>, service2: string -> Response<Option<StatusReply>>)
    ensures forall body :: StatusOf(body).None? ==> PutStatusRoute(body, service1) == PutStatusRoute(body, service2)
  {
  }
}

=== FILE: transfer_properties.dfy ===
/**
 * What the transfer saga does to the transaction store and to the ledger,
 * for every repository whose invariant holds and every way the requests to
 * the accounts service can be delivered.
 */
module TransferProperties {
  import opened Wrappers
  import opened ObjectId
  import opened Transactions
  import opened AccountsRepository
  import opened LedgerTotal
  import opened LedgerLink
  import opened TransferService
  import Plain = TransfersRepository
  import R = Repositories
  import C = CachedTransfersRepository
  import Service = AccountsService

  /** The ledger after the sender pays `q` to the receiver. */
  function Transferred(l: Ledger, from: string, to: string, q: int): (r: Ledger)
    ensures from != to && Service.Accepts(l, from, -q) && Service.Accepts(l, to, q) ==>
      && r.Keys == l.Keys
      && r[from] == l[from].(balance := l[from].balance - q)
      && r[to] == l[to].(balance := l[to].balance + q)
      && forall i :: i in l && i != from && i != to ==> r[i] == l[i]
  {
    Applied(Applied(l, from, -q), to, q)
  }

  /** A completed transfer between two accounts conserves the total. */
  lemma TransferredTotal(l: Ledger, from: string, to: string, q: int)
    requires from != to && Service.Accepts(l, from, -q) && Service.Accepts(l, to, q)
    ensures Total(Transferred(l, from, to, q)) == Total(l)
  {
    PatchTotal(l, from, -q, Delivered);
    PatchTotal(Applied(l, from, -q), to, q, Delivered);
  }

  /**
   * The total after the requests of one transfer: unchanged when both legs
   * went through or the ledger is as before; short by `q` when only the
   * first leg stuck.
   */
  lemma MoveTotal(l: Ledger, from: string, to: string, q: int, net: seq<Delivery>)
    ensures
      var o := Move(l, from, to, q, net);
      && (o.Through? ==> Total(o.ledger) == Total(l))
      && (o.Stopped? && o.ledger != l ==> Total(o.ledger) == Total(l) - q)
  {
    var o := Move(l, from, to, q, net);
    PatchTotal(l, from, -q, Delivered);
    if o.Through? {
      PatchTotal(Applied(l, from, -q), to, q, Delivered);
    }
  }

  /**
   * A valid create inserts exactly one record, built from the request, under
   * the new id; its final status is `completed`, `failed`, or still `pending`
   * when a request to the accounts service raised.
   */
  lemma CreateRecordsOnce(w: World, req: TxCreate, newId: Oid, net: seq<Delivery>)
    requires R.Ok(w.repo) && Plain.Fresh(w.repo.store, newId) && ValidRequest(req)
    ensures
      var (res, w') := Create(w, req, newId, net);
      var s := w.repo.store;
      var s' := w'.repo.store;
      && R.Ok(w'.repo)
      && newId !in s.docs && s'.docs.Keys == s.docs.Keys + {newId}
      && (forall k :: k in s.docs ==> s'.docs[k] == s.docs[k])
      && RequestOf(s'.docs[newId]) == req
      && s'.docs[newId] == FromRequest(req).(status := s'.docs[newId].status)
      && (s'.docs[newId].status == Completed <==> res.Returned? && res.value.Done?)
      && (s'.docs[newId].status == Failed <==> res.Returned? && res.value.Refusal?)
      && (s'.docs[newId].status == Pending <==> res.Raised?)
      && (res.Returned? && res.value.Done? ==> res.value.updated == Some(Plain.View(newId, s'.docs[newId])))
  {
    var s := w.repo.store;
    var (ins, repo1) := R.Insert(w.repo, FromRequest(req), newId);
    assert repo1.store.docs[newId] == FromRequest(req);
    ParsePrinted(newId);
  }

  /**
   * The ledger after a create. Both legs through: the sender paid the
   * receiver. A refused first leg: nothing moved. A refused second leg: the
   * sender is re-credited, unless that request too was refused.
   */
  lemma CreateLedger(w: World, req: TxCreate, newId: Oid, net: seq<Delivery>)
    requires Plain.Fresh(w.repo.store, newId) && ValidRequest(req)
    ensures
      var (res, w') := Create(w, req, newId, net);
      var l := w.ledger;
      && (res.Returned? && res.value.Done? ==>
            && Service.Accepts(l, req.sender, -req.quantity) && Service.Accepts(l, req.receiver, req.quantity)
            && w'.ledger == Transferred(l, req.sender, req.receiver, req.quantity))
      && (res.Returned? && res.value.Refusal? && res.value.reason in {InsufficientFunds, SenderNotFound, DebitError} ==>
            w'.ledger == l)
      && (res.Returned? && res.value.Refusal? && res.value.reason in {ReceiverNotFound, CreditError} ==>
            w'.ledger == (if Nth(net, 2).Refused? then Applied(l, req.sender, -req.quantity) else l))
  {
  }

  /**
   * The total balance after a create that returned: unchanged, except that a
   * refused compensation leaves the sender short by the quantity.
   */
  lemma CreateConservesTotal(w: World, req: TxCreate, newId: Oid, net: seq<Delivery>)
    requires Plain.Fresh(w.repo.store, newId)
    ensures
      var (res, w') := Create(w, req, newId, net);
      res.Returned? ==>
        Total(w'.ledger) == Total(w.ledger) - (if res.value.Refusal? && res.value.reason in {ReceiverNotFound, CreditError} && Nth(net, 2).Refused? then req.quantity else 0)
  {
    if ValidRequest(req) {
      CreateLedger(w, req, newId, net);
      MoveTotal(w.ledger, req.sender, req.receiver, req.quantity, net);
    }
  }

  /** When every request is delivered, a create completes exactly when both legs are accepted. */
  lemma CreateCompletesIffAccepted(w: World, req: TxCreate, newId: Oid)
    requires Plain.Fresh(w.repo.store, newId) && ValidRequest(req)
    ensures
      var res := Create(w, req, newId, []).0;
      && res.Returned?
      && (res.value.Done? <==> Service.Accepts(w.ledger, req.sender, -req.quantity) && Service.Accepts(w.ledger, req.receiver, req.quantity))
      && (res.value.Refusal? ==> Create(w, req, newId, []).1.ledger == w.ledger)
  {
    var l := w.ledger;
    var q := req.quantity;
    if Service.Accepts(l, req.sender, -q) {
      assert Service.Accepts(Applied(l, req.sender, -q), req.receiver, q) <==> Service.Accepts(l, req.receiver, q);
    }
    CreateLedger(w, req, newId, []);
  }

  /** The outcomes of a revert, for a repository whose invariant holds. */
  lemma RevertOutcomes(w: World, id: string, net: seq<Delivery>)
    requires R.Ok(w.repo)
    ensures
      var (res, w') := Revert(w, id, net);
      var found := Plain.Find(w.repo.store, id);
      var l := w.ledger;
      && R.Ok(w'.repo)
      && (res == Returned(None) <==> found.None?)
      && (res.Returned? && res.value.Some? ==> found.Some?)
      && (res.Returned? && res.value.Some? && res.value.value.NotReverted? <==> found.Some? && found.value.tx.status != Completed)
      && (found.Some? && found.value.tx.status != Completed ==> res == Returned(Some(NotReverted(TransactionNotCompleted, found.value))))
      && (found.Some? && found.value.tx.status != Completed ==> w'.ledger == l && w'.repo.store == w.repo.store)
      && (res.Returned? && res.value.Some? && res.value.value.Refusal? && res.value.value.reason in {ReceiverInsufficientFunds, DebitReceiverError} ==>
            w'.ledger == l && w'.repo.store == w.repo.store)
      && (res.Returned? && res.value.Some? && res.value.value.Refusal? && res.value.value.reason == CreditSenderError ==>
            && w'.repo.store == w.repo.store
            && (w'.ledger == l || w'.ledger == Applied(l, found.value.tx.receiver, -found.value.tx.quantity))
            && (found.value.tx.quantity > 0 ==> (w'.ledger == l <==> !Nth(net, 2).Refused?)))
      && (res.Returned? && res.value.Some? && res.value.value.Undone? ==>
            && found.Some? && found.value.tx.status == Completed
            && (res.value.value.updated, w'.repo.store) == Plain.UpdateStatus(w.repo.store, id, Reverted)
            && res.value.value.updated == Some(found.value.(tx := found.value.tx.(status := Reverted)))
            && w'.ledger == Applied(Applied(l, found.value.tx.receiver, -found.value.tx.quantity), found.value.tx.sender, found.value.tx.quantity))
      && (res.Raised? ==> res.fault == TransportError)
  {
  }

  /**
   * A revert that reached `reverted` conserves the total; of a positive
   * quantity, one that returned otherwise moves it only on a refused
   * compensation.
   */
  lemma RevertConservesTotal(w: World, id: string, net: seq<Delivery>)
    requires R.Ok(w.repo)
    ensures
      var (res, w') := Revert(w, id, net);
      var found := Plain.Find(w.repo.store, id);
      && (res.Returned? && res.value.Some? && res.value.value.Undone? ==> Total(w'.ledger) == Total(w.ledger))
      && (res.Returned? && (found.Some? ==> found.value.tx.quantity > 0)
          && !(res.value.Some? && res.value.value.Refusal? && res.value.value.reason == CreditSenderError && Nth(net, 2).Refused?) ==>
            Total(w'.ledger) == Total(w.ledger))
  {
    var found := Plain.Find(w.repo.store, id);
    RevertOutcomes(w, id, net);
    if found.Some? {
      var t := found.value.tx;
      MoveTotal(w.ledger, t.receiver, t.sender, t.quantity, net);
    }
  }

  /**
   * A delete over a repository whose invariant holds keeps the invariant,
   * answers `None` exactly for an unknown id, and never reports
   * `delete_failed`: the record it found is still there to remove.
   */
  lemma DeleteOutcomes(w: World, id: string, net: seq<Delivery>)
    requires R.Ok(w.repo)
    ensures
      var (res, w') := Delete(w, id, net);
      && R.Ok(w'.repo)
      && (res == Returned(None) <==> Plain.Find(w.repo.store, id).None?)
      && (forall tx :: res != Returned(Some(Refusal(DeleteFailed, tx))))
  {
    var (found, repo1) := R.Find(w.repo, id);
    if found.Some? && found.value.tx.status == Completed {
      RevertDependsOnlyOnStore(w, World(repo1, w.ledger), id, net);
      RevertOutcomes(w, id, net);
    }
  }

  /** A record that is not `completed` is removed at once, with the ledger untouched. */
  lemma DeleteUncompleted(w: World, id: string, net: seq<Delivery>)
    requires R.Ok(w.repo)
    requires Plain.Find(w.repo.store, id).Some? && Plain.Find(w.repo.store, id).value.tx.status != Completed
    ensures
      var (res, w') := Delete(w, id, net);
      && res == Returned(Some(Removed(Plain.Find(w.repo.store, id).value)))
      && w'.ledger == w.ledger
      && w'.repo.store == Plain.Delete(w.repo.store, id).1
  {
  }

  /**
   * A `completed` record is reverted first: when the revert reaches
   * `reverted`, the reverted record is removed; otherwise the revert's answer
   * is returned and the record stays.
   */
  lemma DeleteCompleted(w: World, id: string, net: seq<Delivery>)
    requires R.Ok(w.repo)
    requires Plain.Find(w.repo.store, id).Some? && Plain.Find(w.repo.store, id).value.tx.status == Completed
    ensures
      var (res, w') := Delete(w, id, net);
      var (rv, wr) := Revert(w, id, net);
      var found := Plain.Find(w.repo.store, id).value;
      && w'.ledger == wr.ledger
      && (rv.Returned? && rv.value.Some? && rv.value.value.Undone? ==>
            && res == Returned(Some(Removed(found.(tx := found.tx.(status := Reverted)))))
            && w'.repo.store == Plain.Delete(wr.repo.store, id).1)
      && (!(rv.Returned? && rv.value.Some? && rv.value.value.Undone?) ==>
            res == rv && w'.repo.store == w.repo.store)
  {
    var (found, repo1) := R.Find(w.repo, id);
    RevertDependsOnlyOnStore(w, World(repo1, w.ledger), id, net);
    RevertOutcomes(w, id, net);
  }

  /** A delete that answers `deleted` removes exactly the record under the id. */
  lemma DeleteRemovesOne(w: World, id: string, net: seq<Delivery>)
    requires R.Ok(w.repo)
    ensures
      var (res, w') := Delete(w, id, net);
      res.Returned? && res.value.Some? && res.value.value.Removed? ==>
        && Plain.Find(w'.repo.store, id).None?
        && w'.repo.store.docs.Keys == w.repo.store.docs.Keys - {Parse(id).value}
  {
    var (found, repo1) := R.Find(w.repo, id);
    if found.Some? && found.value.tx.status == Completed {
      RevertDependsOnlyOnStore(w, World(repo1, w.ledger), id, net);
      RevertOutcomes(w, id, net);
    }
  }

  /** Over two repositories whose invariants hold and that hold the same store, a revert answers alike. */
  lemma RevertDependsOnlyOnStore(w1: World, w2: World, id: string, net: seq<Delivery>)
    requires R.Ok(w1.repo) && R.Ok(w2.repo) && w1.repo.store == w2.repo.store && w1.ledger == w2.ledger
    ensures
      var (res1, v1) := Revert(w1, id, net);
      var (res2, v2) := Revert(w2, id, net);
      res1 == res2 && v1.ledger == v2.ledger && v1.repo.store == v2.repo.store
  {
  }

  /** Over two repositories whose invariants hold and that hold the same store, a create answers alike. */
  lemma CreateDependsOnlyOnStore(w1: World, w2: World, req: TxCreate, newId: Oid, net: seq<Delivery>)
    requires R.Ok(w1.repo) && R.Ok(w2.repo) && w1.repo.store == w2.repo.store && w1.ledger == w2.ledger
    requires Plain.Fresh(w1.repo.store, newId)
    ensures
      var (res1, v1) := Create(w1, req, newId, net);
      var (res2, v2) := Create(w2, req, newId, net);
      res1 == res2 && v1.ledger == v2.ledger && v1.repo.store == v2.repo.store
  {
    if ValidRequest(req) {
      var (_, repo1) := R.Insert(w1.repo, FromRequest(req), newId);
      var (_, repo2) := R.Insert(w2.repo, FromRequest(req), newId);
      assert repo1.store == repo2.store && R.Ok(repo1) && R.Ok(repo2);
    }
  }

  /** Over two repositories whose invariants hold and that hold the same store, a delete answers alike. */
  lemma DeleteDependsOnlyOnStore(w1: World, w2: World, id: string, net: seq<Delivery>)
    requires R.Ok(w1.repo) && R.Ok(w2.repo) && w1.repo.store == w2.repo.store && w1.ledger == w2.ledger
    ensures
      var (res1, v1) := Delete(w1, id, net);
      var (res2, v2) := Delete(w2, id, net);
      res1 == res2 && v1.ledger == v2.ledger && v1.repo.store == v2.repo.store
  {
    var (f1, repo1) := R.Find(w1.repo, id);
    var (f2, repo2) := R.Find(w2.repo, id);
    if f1.Some? && f1.value.tx.status == Completed {
      RevertDependsOnlyOnStore(World(repo1, w1.ledger), World(repo2, w2.ledger), id, net);
    }
  }

  /**
   * A create through the cache-aside decorator, while every cached entry is
   * current, answers exactly as over the plain repository and leaves the same
   * store and ledger behind.
   */
  lemma CachedCreateIsPlainCreate(s: Plain.Store, c: C.Cache, l: Ledger, req: TxCreate, newId: Oid, net: seq<Delivery>)
    requires C.Invariant(c, s) && Plain.Fresh(s, newId)
    ensures
      var (a1, v1) := Create(World(R.Cached(s, c), l), req, newId, net);
      var (a2, v2) := Create(World(R.Direct(s), l), req, newId, net);
      a1 == a2 && v1.ledger == v2.ledger && v1.repo.store == v2.repo.store
  {
    CreateDependsOnlyOnStore(World(R.Cached(s, c), l), World(R.Direct(s), l), req, newId, net);
  }

  /** A revert through the decorator over a coherent cache answers and acts as over the plain repository. */
  lemma CachedRevertIsPlainRevert(s: Plain.Store, c: C.Cache, l: Ledger, id: string, net: seq<Delivery>)
    requires C.Invariant(c, s)
    ensures
      var (a1, v1) := Revert(World(R.Cached(s, c), l), id, net);
      var (a2, v2) := Revert(World(R.Direct(s), l), id, net);
      a1 == a2 && v1.ledger == v2.ledger && v1.repo.store == v2.repo.store
  {
    RevertDependsOnlyOnStore(World(R.Cached(s, c), l), World(R.Direct(s), l), id, net);
  }

  /** A delete through the decorator over a coherent cache answers and acts as over the plain repository. */
  lemma CachedDeleteIsPlainDelete(s: Plain.Store, c: C.Cache, l: Ledger, id: string, net: seq<Delivery>)
    requires C.Invariant(c, s)
    ensures
      var (a1, v1) := Delete(World(R.Cached(s, c), l), id, net);
      var (a2, v2) := Delete(World(R.Direct(s), l), id, net);
      a1 == a2 && v1.ledger == v2.ledger && v1.repo.store == v2.repo.store
  {
    DeleteDependsOnlyOnStore(World(R.Cached(s, c), l), World(R.Direct(s), l), id, net);
  }

  /**
   * With every request delivered, a create that both accounts accept,
   * followed by a revert of the new record, restores the ledger, provided the
   * receiver held something before: the revert must leave it above zero.
   */
  lemma CreateThenRevert(w: World, req: TxCreate, newId: Oid)
    requires R.Ok(w.repo) && Plain.Fresh(w.repo.store, newId) && ValidRequest(req)
    requires Service.Accepts(w.ledger, req.sender, -req.quantity)
    requires req.receiver in w.ledger && w.ledger[req.receiver].balance > 0
    ensures
      var (res1, w1) := Create(w, req, newId, []);
      var (res2, w2) := Revert(w1, newId, []);
      && res1.Returned? && res1.value.Done?
      && res2.Returned? && res2.value.Some? && res2.value.value.Undone?
      && w2.ledger == w.ledger
      && w2.repo.store.docs[newId] == FromRequest(req).(status := Reverted)
  {
    var l := w.ledger;
    var (sd, rc, q) := (req.sender, req.receiver, req.quantity);
    CreateRecordsOnce(w, req, newId, []);
    CreateCompletesIffAccepted(w, req, newId);
    CreateLedger(w, req, newId, []);
    var (res1, w1) := Create(w, req, newId, []);
    ParsePrinted(newId);
    RevertOutcomes(w1, newId, []);
    var l0 := Applied(l, sd, -q);
    AppliedInverse(l0, rc, q);
    AppliedInverse(l, sd, -q);
    var (res2, w2) := Revert(w1, newId, []);
    assert Move(w1.ledger, rc, sd, q, []).Through?;
  }

  /**
   * Because a balance may not reach zero, a transfer to an account that held
   * nothing cannot be reverted: the receiver's debit is refused, and the
   * ledger keeps the transfer.
   */
  lemma StrictRuleBlocksRevert(w: World, req: TxCreate, newId: Oid)
    requires R.Ok(w.repo) && Plain.Fresh(w.repo.store, newId) && ValidRequest(req)
    requires Service.Accepts(w.ledger, req.sender, -req.quantity)
    requires req.receiver in w.ledger && w.ledger[req.receiver].balance == 0
    ensures
      var (res1, w1) := Create(w, req, newId, []);
      var (res2, w2) := Revert(w1, newId, []);
      && res1.Returned? && res1.value.Done?
      && res2 == Returned(Some(Refusal(ReceiverInsufficientFunds, Plain.View(newId, FromRequest(req).(status := Completed)))))
      && w2.ledger == w1.ledger && w2.ledger != w.ledger
  {
    CreateRecordsOnce(w, req, newId, []);
    CreateCompletesIffAccepted(w, req, newId);
    CreateLedger(w, req, newId, []);
    var (res1, w1) := Create(w, req, newId, []);
    ParsePrinted(newId);
    RevertOutcomes(w1, newId, []);
    assert w1.ledger[req.receiver].balance == req.quantity;
  }

  /**
   * As written, a sender `../<a>` is debited through the general update of
   * `<a>`, which ignores the balance and answers 200: nothing is taken, the
   * receiver is credited, and the total grows by `q`. With the party naming
   * the account exactly, the debit finds no account and the transfer stops.
   */
  lemma DotSegmentSenderAddsMoney(base: string, l: Ledger, a: string, b: string, q: int)
    requires PlainSegment(a) && a in l && "../" + a !in l
    requires PlainSegment(b) && Service.Accepts(l, b, q)
    requires Sendable(OperationUrl(base, "../" + a)) && Sendable(OperationUrl(base, b))
    ensures MoveAsWritten(base, l, "../" + a, b, q, []) == Some(Through(Applied(l, b, q)))
    ensures Total(Applied(l, b, q)) == Total(l) + q
    ensures Move(l, "../" + a, b, q, []) == Stopped(FirstLeg, 404, l)
  {
    var from := "../" + a;
    PathPartWhole(from);
    PatchTotal(l, b, q, Delivered);
  }

  /**
   * As written, `<a>?x` paying `<a>?y` debits and credits the one account
   * `<a>`: the two parties differ, the transfer goes through, and the ledger
   * is as it was. With the parties naming accounts exactly, the debit finds
   * no account.
   */
  lemma QuerySuffixesMeetAtOneAccount(base: string, l: Ledger, a: string, q: int)
    requires PlainSegment(a) && Service.Accepts(l, a, -q) && q > 0 && a + "?x" !in l
    requires Sendable(OperationUrl(base, a + "?x")) && Sendable(OperationUrl(base, a + "?y"))
    ensures a + "?x" != a + "?y"
    ensures MoveAsWritten(base, l, a + "?x", a + "?y", q, []) == Some(Through(l))
    ensures Move(l, a + "?x", a + "?y", q, []) == Stopped(FirstLeg, 404, l)
  {
    assert (a + "?x")[|a| + 1] != (a + "?y")[|a| + 1];
    assert PathPart(a + "?x") == a by {
      assert (a + "?x")[..|a|] == a;
      PathPartPrefix(a + "?x", |a|);
    }
    assert PathPart(a + "?y") == a by {
      assert (a + "?y")[..|a|] == a;
      PathPartPrefix(a + "?y", |a|);
    }
    AppliedInverse(l, a, -q);
  }

  /**
   * As written, a sender holding a tab is never debited: the client refuses
   * the URL and the request raises, so the create answers 500 and leaves its
   * record `pending`. With the party naming the account exactly, a sender
   * with no account is refused with 404 instead.
   */
  lemma ControlCharacterSenderRaises(base: string, l: Ledger, a: string, b: string, to: string, q: int, net: seq<Delivery>)
    requires a + "\t" + b !in l
    ensures MoveAsWritten(base, l, a + "\t" + b, to, q, net) == Some(Crashed(l))
    ensures Nth(net, 0).Delivered? ==> Move(l, a + "\t" + b, to, q, net) == Stopped(FirstLeg, 404, l)
  {
    var url := OperationUrl(base, a + "\t" + b);
    assert url[|base| + 23 + |a|] == '\t';
  }
}

=== FILE: transfer_service.dfy ===
/**
 * `TransferService`: the transfer saga. A create inserts a pending record,
 * debits the sender and credits the receiver through the accounts service,
 * re-crediting the sender when the credit fails; a revert runs the inverse
 * transfer with its own compensation; a delete reverts a completed record
 * before removing it.
 *
 * The world the service acts on is the transaction repository and the
 * accounts ledger. The `i`-th request an operation sends to the accounts
 * service is delivered as `Nth(net, i)` says: 0 is the first leg, 1 the
 * second, 2 the compensation. A dropped request raises out of the service,
 * as nothing in it catches `httpx` errors.
 */
module TransferService {
  import opened Wrappers
  import opened ObjectId
  import opened Transactions
  import opened AccountsRepository
  import opened LedgerLink
  import Service = AccountsService
  import Plain = TransfersRepository
  import R = Repositories

  datatype World = World(repo: R.Repo, ledger: Ledger)

  /** What escapes the service: a validation `ValueError`, or an `httpx` transport error. */
  datatype Fault = ValueError(message: string) | TransportError

  datatype Response<T> = Returned(value: T) | Raised(fault: Fault)

  /** The `reason` strings of a failed or refused operation. */
  datatype Reason =
    | InsufficientFunds | SenderNotFound | DebitError | ReceiverNotFound | CreditError
    | TransactionNotCompleted | ReceiverInsufficientFunds | DebitReceiverError | CreditSenderError
    | DeleteFailed
  {
    function Text(): string {
      match this
      case InsufficientFunds => "insufficient_funds"
      case SenderNotFound => "sender_not_found"
      case DebitError => "debit_error"
      case ReceiverNotFound => "receiver_not_found"
      case CreditError => "credit_error"
      case TransactionNotCompleted => "transaction_not_completed"
      case ReceiverInsufficientFunds => "receiver_insufficient_funds"
      case DebitReceiverError => "debit_receiver_error"
      case CreditSenderError => "credit_sender_error"
      case DeleteFailed => "delete_failed"
    }
  }

  /** The result dictionaries, by their `status` entry. */
  datatype Reply =
    | Done(updated: Option<TxView>)
    | Refusal(reason: Reason, tx: TxView)
    | NotReverted(reason: Reason, tx: TxView)
    | Undone(updated: Option<TxView>)
    | Removed(tx: TxView)
  {
    function StatusText(): string {
      match this
      case Done(_) => "completed"
      case Refusal(_, _) => "failed"
      case NotReverted(_, _) => "not_reverted"
      case Undone(_) => "reverted"
      case Removed(_) => "deleted"
    }
  }

  const QuantityMessage: string := "Quantity must be positive"
  const ParticipantsMessage: string := "Sender and receiver must be different"

  /** A request `create_transaction` goes on with. */
  predicate ValidRequest(req: TxCreate) {
    req.quantity > 0 && req.sender != req.receiver
  }

  /** The reason a refused first leg of a create reports. */
  function DebitReason(code: int): (r: Reason)
    ensures r in {InsufficientFunds, SenderNotFound, DebitError}
    ensures r == InsufficientFunds <==> code == 403
    ensures r == SenderNotFound <==> code == 404
  {
    if code == 403 then InsufficientFunds else if code == 404 then SenderNotFound else DebitError
  }

  /** The reason a refused second leg of a create reports. */
  function CreditReason(code: int): (r: Reason)
    ensures r in {ReceiverNotFound, CreditError}
    ensures r == ReceiverNotFound <==> code == 404
  {
    if code == 404 then ReceiverNotFound else CreditError
  }

  /** Which request of a transfer the accounts service refused. */
  datatype Leg = FirstLeg | SecondLeg

  /** How the requests of one transfer ended, and the ledger they left. */
  datatype Outcome = Through(ledger: Ledger) | Stopped(leg: Leg, code: int, ledger: Ledger) | Crashed(ledger: Ledger)

  /**
   * The request pattern `create_transaction` and `revert_transaction` share:
   * take `q` from `from`; if refused, stop. Otherwise give `q` to `to`; if
   * refused, give `q` back to `from`, whatever that request answers, and stop.
   * A request that raises ends everything.
   */
  function Move(l: Ledger, from: string, to: string, q: int, net: seq<Delivery>): (o: Outcome)
    ensures o.Through? ==>
      && Service.Accepts(l, from, -q) && Service.Accepts(Applied(l, from, -q), to, q)
      && o.ledger == Applied(Applied(l, from, -q), to, q)
    ensures o.Stopped? ==> o.code >= 400
    ensures o.Stopped? && o.leg == FirstLeg ==> o.ledger == l
    ensures o.Stopped? && o.leg == SecondLeg ==> o.ledger == l || o.ledger == Applied(l, from, -q)
    ensures o.Stopped? && o.leg == SecondLeg && q > 0 ==> (o.ledger == l <==> !Nth(net, 2).Refused?)
    ensures o.Crashed? ==> Nth(net, 0).Dropped? || Nth(net, 1).Dropped? || Nth(net, 2).Dropped?
    ensures Nth(net, 0).Delivered? && Nth(net, 1).Delivered? ==>
      (o.Through? <==> Service.Accepts(l, from, -q) && Service.Accepts(Applied(l, from, -q), to, q))
  {
    var first := Patch(l, from, -q, Nth(net, 0));
    if first.Lost? then Crashed(first.ledger)
    else if first.code >= 400 then Stopped(FirstLeg, first.code, first.ledger)
    else
      var second := Patch(first.ledger, to, q, Nth(net, 1));
      if second.Lost? then Crashed(second.ledger)
      else if second.code >= 400 then
        var back := Patch(second.ledger, from, q, Nth(net, 2));
        if back.Lost? then Crashed(back.ledger)
        else
          CompensationRestores(l, from, q, Nth(net, 2));
          Stopped(SecondLeg, second.code, back.ledger)
      else Through(second.ledger)
  }

  /** Giving back what was taken restores the ledger, unless the request giving it back is refused. */
  lemma CompensationRestores(l: Ledger, from: string, q: int, d: Delivery)
    requires Service.Accepts(l, from, -q) && !d.Dropped?
    ensures q > 0 ==> Patch(Applied(l, from, -q), from, q, d).ledger == (if d.Refused? then Applied(l, from, -q) else l)
    ensures q > 0 ==> Applied(l, from, -q) != l
  {
    if q > 0 {
      assert Applied(l, from, -q)[from].balance != l[from].balance;
      if d.Delivered? {
        assert Service.Accepts(Applied(l, from, -q), from, q);
        AppliedInverse(l, from, -q);
      }
    }
  }

  /**
   * `Move` with each party put into the URL after the accounts base URL
   * `base` unescaped, as the code does; `None` when some request goes to a
   * URL `RouteAsWritten` does not resolve. For parties that are plain path
   * segments, in URLs the client sends, it is `Move`; a sender whose URL the
   * client refuses raises before anything changes.
   */
  function MoveAsWritten(base: string, l: Ledger, from: string, to: string, q: int, net: seq<Delivery>): (o: Option<Outcome>)
    ensures
      && PlainSegment(from) && Sendable(OperationUrl(base, from))
      && PlainSegment(to) && Sendable(OperationUrl(base, to))
      ==> o == Some(Move(l, from, to, q, net))
    ensures !Sendable(OperationUrl(base, from)) ==> o == Some(Crashed(l))
  {
    match PatchAsWritten(base, l, from, -q, Nth(net, 0))
    case None => None
    case Some(first) =>
      if first.Lost? then Some(Crashed(first.ledger))
      else if first.code >= 400 then Some(Stopped(FirstLeg, first.code, first.ledger))
      else
        match PatchAsWritten(base, first.ledger, to, q, Nth(net, 1))
        case None => None
        case Some(second) =>
          if second.Lost? then Some(Crashed(second.ledger))
          else if second.code >= 400 then
            match PatchAsWritten(base, second.ledger, from, q, Nth(net, 2))
            case None => None
            case Some(back) =>
              if back.Lost? then Some(Crashed(back.ledger)) else Some(Stopped(SecondLeg, second.code, back.ledger))
          else Some(Through(second.ledger))
  }

  /**
   * `create_transaction`. `newId` is the ObjectId the store issues for the
   * new record.
   */
  function Create(w: World, req: TxCreate, newId: Oid, net: seq<Delivery>): (r: (Response<Reply>, World))
    requires Plain.Fresh(w.repo.store, newId)
    ensures req.quantity <= 0 ==> r == (Raised(ValueError(QuantityMessage)), w)
    ensures req.quantity > 0 && req.sender == req.receiver ==> r == (Raised(ValueError(ParticipantsMessage)), w)
    ensures r.0.Raised? && r.0.fault.ValueError? <==> !ValidRequest(req)
    ensures r.0.Returned? ==> r.0.value.Done? || (r.0.value.Refusal? && r.0.value.tx == Plain.View(newId, FromRequest(req)))
  {
    if req.quantity <= 0 then (Raised(ValueError(QuantityMessage)), w)
    else if req.sender == req.receiver then (Raised(ValueError(ParticipantsMessage)), w)
    else
      var (inserted, repo1) := R.Insert(w.repo, FromRequest(req), newId);
      match Move(w.ledger, req.sender, req.receiver, req.quantity, net)
      case Crashed(l') => (Raised(TransportError), World(repo1, l'))
      case Stopped(leg, code, l') =>
        var (_, repo2) := R.UpdateStatus(repo1, newId, Failed);
        var reason := if leg == FirstLeg then DebitReason(code) else CreditReason(code);
        (Returned(Refusal(reason, inserted)), World(repo2, l'))
      case Through(l') =>
        var (updated, repo2) := R.UpdateStatus(repo1, newId, Completed);
        (Returned(Done(updated)), World(repo2, l'))
  }

  /** `revert_transaction`: `None` when there is no such record. */
  function Revert(w: World, id: string, net: seq<Delivery>): (r: (Response<Option<Reply>>, World))
    ensures r.0 == Returned(None) ==> r.1.ledger == w.ledger && r.1.repo.store == w.repo.store
    ensures r.0.Returned? && r.0.value.Some? ==> r.0.value.value.NotReverted? || r.0.value.value.Refusal? || r.0.value.value.Undone?
    ensures r.0.Returned? && r.0.value.Some? && !r.0.value.value.Undone? ==> r.1.repo.store == w.repo.store
    ensures r.0.Raised? ==> r.0.fault == TransportError && r.1.repo.store == w.repo.store
  {
    var (found, repo1) := R.Find(w.repo, id);
    match found
    case None => (Returned(None), World(repo1, w.ledger))
    case Some(tx) =>
      if tx.tx.status != Completed then
        (Returned(Some(NotReverted(TransactionNotCompleted, tx))), World(repo1, w.ledger))
      else
        match Move(w.ledger, tx.tx.receiver, tx.tx.sender, tx.tx.quantity, net)
        case Crashed(l') => (Raised(TransportError), World(repo1, l'))
        case Stopped(leg, code, l') =>
          var reason :=
            if leg == SecondLeg then CreditSenderError
            else if code == 403 then ReceiverInsufficientFunds
            else DebitReceiverError;
          (Returned(Some(Refusal(reason, tx))), World(repo1, l'))
        case Through(l') =>
          var (updated, repo2) := R.UpdateStatus(repo1, id, Reverted);
          (Returned(Some(Undone(updated))), World(repo2, l'))
  }

  /** The removal step of `delete_transaction`, once the record may go. */
  function Remove(w: World, id: string, tx: TxView): (r: (Response<Option<Reply>>, World))
    ensures r.1.ledger == w.ledger && r.1.repo.store == Plain.Delete(w.repo.store, id).1
    ensures r.0 == Returned(Some(if Plain.Find(w.repo.store, id).Some? then Removed(Plain.Find(w.repo.store, id).value) else Refusal(DeleteFailed, tx)))
  {
    var (deleted, repo2) := R.Delete(w.repo, id);
    match deleted
    case None => (Returned(Some(Refusal(DeleteFailed, tx))), World(repo2, w.ledger))
    case Some(d) => (Returned(Some(Removed(d))), World(repo2, w.ledger))
  }

  /** `delete_transaction`: a completed record is reverted first, and stays unless the revert succeeds. */
  function Delete(w: World, id: string, net: seq<Delivery>): (r: (Response<Option<Reply>>, World))
    ensures r.0 == Returned(None) ==> r.1.ledger == w.ledger && r.1.repo.store == w.repo.store
    ensures r.0.Returned? && r.0.value.Some? && r.0.value.value.Removed? ==> Plain.Find(r.1.repo.store, id).None?
    ensures r.0.Returned? && r.0.value.Some? && r.0.value.value.Refusal? && r.0.value.value.reason != DeleteFailed ==> r.1.repo.store == w.repo.store
  {
    var (found, repo1) := R.Find(w.repo, id);
    match found
    case None => (Returned(None), World(repo1, w.ledger))
    case Some(tx) =>
      if tx.tx.status == Completed then
        var (res, w2) := Revert(World(repo1, w.ledger), id, net);
        if res.Raised? || res.value.None? || !res.value.value.Undone? then (res, w2)
        else Remove(w2, id, tx)
      else Remove(World(repo1, w.ledger), id, tx)
  }

  /** `get_transaction`. */
  function Get(w: World, id: string): (r: (Option<TxView>, World))
    ensures r.1.ledger == w.ledger && r.1.repo.store == w.repo.store
    ensures R.Ok(w.repo) ==> r.0 == Plain.Find(w.repo.store, id) && R.Ok(r.1.repo)
  {
    var (v, repo1) := R.Find(w.repo, id);
    (v, World(repo1, w.ledger))
  }

  /** `get_transactions_by_user`. */
  function GetByUser(w: World, u: string): (r: (seq<TxView>, World))
    ensures r.1.ledger == w.ledger && r.1.repo.store == w.repo.store
    ensures R.Ok(w.repo) ==> r.0 == Plain.FindByUser(w.repo.store, u) && R.Ok(r.1.repo)
  {
    var (vs, repo1) := R.FindByUser(w.repo, u);
    (vs, World(repo1, w.ledger))
  }
}

=== FILE: transfers_repository.dfy ===
/**
 * The `transactions` collection and the plain repository over it
 * (`TransfersRepository`). Documents are keyed by their ObjectId; `order`
 * records the ids in the order they were issued, standing in for the
 * collection's natural order, which is the order query results come back in.
 */
module TransfersRepository {
  import opened Wrappers
  import opened ObjectId
  import opened Transactions

  datatype Store = Store(docs: map<Oid, TxBase>, order: seq<Oid>)

  /** Every stored document was issued an id, so every document is visited by a query. */
  ghost predicate Valid(s: Store) {
    forall k :: k in s.docs ==> k in s.order
  }

  /** ObjectIds are never issued twice, so a fresh id is one the store has never seen. */
  predicate Fresh(s: Store, id: Oid) {
    id !in s.order
  }

  /** A stored document as returned to callers: `_id` popped and printed as `id`. */
  function View(k: Oid, t: TxBase): TxView {
    TxView(Some(k), t)
  }

  /** Which participant a query matches on. */
  datatype Role = Involving | Sent | Received

  predicate Matches(role: Role, u: string, t: TxBase) {
    match role
    case Involving => t.sender == u || t.receiver == u
    case Sent => t.sender == u
    case Received => t.receiver == u
  }

  /** `find_transaction_by_id`: a malformed id is reported as not found without a lookup. */
  function Find(s: Store, id: string): (r: Option<TxView>)
    ensures r.Some? <==> Parses(id) && Parse(id).value in s.docs
    ensures r.Some? ==> r.value == View(Parse(id).value, s.docs[Parse(id).value])
    ensures r.Some? ==> r.value.id == Parse(id)
  {
    match Parse(id)
    case None => None
    case Some(k) => if k in s.docs then Some(View(k, s.docs[k])) else None
  }

  /** `insert_transaction`: store the document under a fresh id and return it with that id. */
  function Insert(s: Store, doc: TxBase, newId: Oid): (r: (TxView, Store))
    requires Fresh(s, newId)
    ensures r.0.id == Some(newId) && r.0.tx == doc
    ensures Find(r.1, newId) == Some(r.0)
    ensures Valid(s) ==> Valid(r.1) && newId !in s.docs && r.1.docs.Keys == s.docs.Keys + {newId}
    ensures forall k :: k in s.docs && k != newId ==> k in r.1.docs && r.1.docs[k] == s.docs[k]
  {
    ParsePrinted(newId);
    var s' := Store(s.docs[newId := doc], s.order + [newId]);
    (View(newId, doc), s')
  }

  /** The documents, in issue order, that a participant query returns. */
  function Select(order: seq<Oid>, docs: map<Oid, TxBase>, u: string, role: Role): (r: seq<TxView>)
    ensures forall v :: v in r <==> exists k :: k in order && k in docs && Matches(role, u, docs[k]) && v == View(k, docs[k])
    ensures forall v :: v in r ==> v.id.Some?
  {
    if |order| == 0 then []
    else
      var k := order[|order| - 1];
      var front := order[..|order| - 1];
      var prefix := Select(front, docs, u, role);
      assert order == front + [k];
      if k in docs && Matches(role, u, docs[k]) then prefix + [View(k, docs[k])] else prefix
  }

  /** `find_transactions_by_user`: records the user sent or received. */
  function FindByUser(s: Store, u: string): (r: seq<TxView>)
    ensures forall v :: v in r <==> exists k :: k in s.order && k in s.docs && (s.docs[k].sender == u || s.docs[k].receiver == u) && v == View(k, s.docs[k])
  {
    Select(s.order, s.docs, u, Involving)
  }

  /** `find_transactions_sent_by_user`. */
  function FindSent(s: Store, u: string): (r: seq<TxView>)
    ensures forall v :: v in r <==> exists k :: k in s.order && k in s.docs && (s.docs[k].sender == u) && v == View(k, s.docs[k])
  {
    Select(s.order, s.docs, u, Sent)
  }

  /** `find_transactions_received_by_user`. */
  function FindReceived(s: Store, u: string): (r: seq<TxView>)
    ensures forall v :: v in r <==> exists k :: k in s.order && k in s.docs && (s.docs[k].receiver == u) && v == View(k, s.docs[k])
  {
    Select(s.order, s.docs, u, Received)
  }

  /**
   * `update_transaction_status`: a malformed id changes nothing; otherwise only
   * the `status` field of the matching record is set, and the record is read back.
   */
  function UpdateStatus(s: Store, id: string, st: Status): (r: (Option<TxView>, Store))
    ensures !Parses(id) ==> r.1 == s
    ensures r.1.order == s.order && r.1.docs.Keys == s.docs.Keys
    ensures forall k :: k in s.docs && Some(k) != Parse(id) ==> r.1.docs[k] == s.docs[k]
    ensures r.0.Some? <==> Find(s, id).Some?
    ensures r.0.Some? ==> r.0.value.tx == Find(s, id).value.tx.(status := st) && r.0.value.id == Find(s, id).value.id
    ensures r.0 == Find(r.1, id)
  {
    match Parse(id)
    case None => (None, s)
    case Some(k) =>
      var s' := if k in s.docs then s.(docs := s.docs[k := s.docs[k].(status := st)]) else s;
      (Find(s', id), s')
  }

  /**
   * Removal by id, returning the removed record. The plain repository defines
   * no such method; its shape is inferred from the two places that call it.
   */
  function Delete(s: Store, id: string): (r: (Option<TxView>, Store))
    ensures r.0 == Find(s, id)
    ensures Find(r.1, id).None?
    ensures r.1.order == s.order
    ensures r.0.None? ==> r.1 == s
    ensures r.0.Some? ==> r.1.docs == s.docs - {Parse(id).value}
  {
    match Parse(id)
    case None => (None, s)
    case Some(k) =>
      if k in s.docs then (Some(View(k, s.docs[k])), s.(docs := s.docs - {k})) else (None, s)
  }

  /** Sent-by plus received-by covers exactly the same records as the by-user query. */
  lemma InvolvingIsSentOrReceived(s: Store, u: string, v: TxView)
    ensures v in FindByUser(s, u) <==> v in FindSent(s, u) || v in FindReceived(s, u)
  {
  }

  /** In a valid store the by-user query lists exactly the records the user takes part in. */
  lemma FindByUserExactly(s: Store, u: string, k: Oid)
    requires Valid(s)
    requires k in s.docs
    ensures View(k, s.docs[k]) in FindByUser(s, u) <==> s.docs[k].sender == u || s.docs[k].receiver == u
  {
    var t := s.docs[k];
    if View(k, t) in FindByUser(s, u) {
      var k' :| k' in s.order && k' in s.docs && Matches(Involving, u, s.docs[k']) && View(k, t) == View(k', s.docs[k']);
      assert k' == k;
    }
    if t.sender == u || t.receiver == u {
      assert k in s.order && Matches(Involving, u, t);
    }
  }

  /** Two document maps agree, as far as a query for `u` in `role` can tell, on the document `k`. */
  ghost predicate SameFor(docs: map<Oid, TxBase>, docs': map<Oid, TxBase>, u: string, role: Role, k: Oid) {
    var listed := k in docs && Matches(role, u, docs[k]);
    var listed' := k in docs' && Matches(role, u, docs'[k]);
    listed == listed' && (listed ==> docs[k] == docs'[k])
  }

  /** A query only sees the documents it matches: changes to any other leave its result alone. */
  lemma {:induction false} SelectAgrees(order: seq<Oid>, docs: map<Oid, TxBase>, docs': map<Oid, TxBase>, u: string, role: Role)
    requires forall i :: 0 <= i < |order| ==> SameFor(docs, docs', u, role, order[i])
    ensures Select(order, docs, u, role) == Select(order, docs', u, role)
  {
    if |order| > 0 {
      var front := order[..|order| - 1];
      assert forall i :: 0 <= i < |front| ==> front[i] == order[i];
      SelectAgrees(front, docs, docs', u, role);
      assert SameFor(docs, docs', u, role, order[|order| - 1]);
    }
  }

  /** Issuing one more id extends a query result by at most that one document, at the end. */
  lemma SelectAppend(order: seq<Oid>, docs: map<Oid, TxBase>, k: Oid, u: string, role: Role)
    ensures Select(order + [k], docs, u, role) ==
      Select(order, docs, u, role) + (if k in docs && Matches(role, u, docs[k]) then [View(k, docs[k])] else [])
  {
    assert (order + [k])[..|order + [k]| - 1] == order;
  }
}

=== FILE: wrappers.dfy ===
/** Small failure-carrying datatypes shared by the whole model. */
module Wrappers {

  /** Python's `X | None`. */
  datatype Option<+T> = None | Some(value: T) {

    function GetOr(default: T): T {
      match this
      case Some(v) => v
      case None => default
    }
  }

  /** A Python call that either returns a value or raises. */
  datatype Result<+T, +E> = Success(value: T) | Failure(error: E)
}
